=== FILE: README.md ===
# Bundle selection for a Shopify theme, modelled in Dafny

The theme sells gift-card bundles with three scripts.

- `assets/build-own-bundle.js` is the "build your own bundle" page. Product
  cards add line items, keyed by product title, to a selection list. Each
  bundle tab sets a product limit (default 14) and a discount label (default
  "10% off"). The add, plus and minus buttons on the cards and in the summary
  change the list, and the add and plus clicks are refused at the limit. The
  summary derives the total, the items remaining, completeness and a progress
  percentage.
- `assets/gift-card-product-info.js` is the `<product-info>` component. Its
  bundle widget (`<bundle-selects>`) and the native variant picker
  (`<variant-selects>`) exclude each other:
  - Choosing a bundle looks it up in the embedded catalog, clears the picker,
    writes the variant id and a "Gift Type" property into the product forms,
    and requests the bundle's section.
  - Choosing a native variant clears the bundle widget, removes the Gift Type
    and restores the default description.

  The same file computes the quantity input's bounds, assembles request URLs
  and the `?variant=` address, normalises description payloads, and
  reconciles the media gallery with a fetched one.
- `assets/gift-card-bundle.js` is a standalone version of the same
  exclusion. It applies a bundle choice to the page directly: the form's id
  input, the `variant` query parameter, the price (through its fallback money
  formatter), the submit button and the description.

The page is modelled as immutable records. The module for each concept is:

| module | what it models |
|---|---|
| `Picker` | the bundle widget with its radios, and the native picker with its radios, dropdown options and fieldsets |
| `Catalog` | the bundle catalog, lookups in it, and description payloads |
| `BundleBuilder` | the line-item list and its cards |
| `ProductInfo` | the component's forms and component |
| `GiftCardBundle` | the standalone script's page |

Every handler is a pure function from the old state to the new one. The
browser's own step before a change event is a separate function in `Picker`:
checking the clicked radio and unchecking the rest of its group.

Four more modules support these:

| module | what it models |
|---|---|
| `Money` | the `'$' + (cents / 100).toFixed(2)` formatter, written in exact integer arithmetic, with a parser that shows the text loses nothing |
| `UrlParams` | `URLSearchParams.set` over an ordered list of pairs |
| `MediaGallery` | the gallery reconciliation on sequences of media ids |
| `QuantityRules` | `setQuantityBoundries` |

`BundleInvariant` states the invariant the bundle builder keeps. Every entry
has a positive quantity and points at the card with its title, and that
card's input shows the same quantity. Titles are unique, and so are the
cards' titles: each product is listed on one card. A card's add button is
hidden exactly when its product is in the bundle. The module then proves
two facts about any sequence of deliverable clicks that starts where the
invariant holds:

- every click keeps this invariant;
- while the tab stays the same, the total never passes the product limit.

The limit guarantee holds only for pages with one card per product, and
only while no input is typed into; clicks never break the invariant, but a
typed input does. Two lemmas show the limit passed when either
hypothesis fails.

## Model

| member | source | states |
|---|---|---|
| `BundleBuilder.LimitOf` | assets/build-own-bundle.js:33 | a missing, unparsable or zero product limit falls back to 14, any other parsed limit is kept, and the limit is never 0 |
| `BundleBuilder.DiscountOf` | assets/build-own-bundle.js:34 | an empty or missing discount label falls back to "10% off", any other label is kept |
| `BundleBuilder.RefreshIsStable` | assets/build-own-bundle.js:209-213 | after the refresh, the limit and label are those of the active tab, and a builder already in step with its active tab is left unchanged |
| `BundleBuilder.TotalAppend` | assets/build-own-bundle.js:215 | the quantity sum of two lists put end to end is the sum of their sums |
| `BundleBuilder.TotalUpdate` | assets/build-own-bundle.js:215 | replacing one entry changes the sum by the difference of the two quantities |
| `BundleBuilder.TotalRemove` | assets/build-own-bundle.js:215 | deleting one entry lowers the sum by its quantity |
| `BundleBuilder.FindTitle` | assets/build-own-bundle.js:119-121 | the result is -1 exactly when no entry has the title, and otherwise the first entry with that title |
| `BundleBuilder.FindUnique` | assets/build-own-bundle.js:119-121 | when titles are unique, looking up an entry's title finds that same entry |
| `BundleBuilder.AddProduct` | assets/build-own-bundle.js:113-136 | an entry already present has its quantity raised, with the length and every other entry unchanged; otherwise the new entry is appended at the end. The total always rises by the quantity, and unique titles stay unique |
| `BundleBuilder.SetQuantityByTitle` | assets/build-own-bundle.js:142-152 | the entry with the title gets exactly the new quantity, not added to the old one, and the others are unchanged; an absent title changes nothing |
| `BundleBuilder.RemoveAt` | assets/build-own-bundle.js:179 | exactly entry `i` is deleted, the rest keep their order, and the total drops by its quantity; unique titles stay unique and the removed title is then absent; an index past the end changes nothing |
| `BundleBuilder.RemoveByTitle` | assets/build-own-bundle.js:154-164 | an absent title is a no-op; otherwise one entry is deleted, the total drops by its quantity, and the title is gone |
| `BundleBuilder.Progress` | assets/build-own-bundle.js:216 | the percentage is at most 100, is 100 exactly when the total reaches the limit, and otherwise is the largest whole percentage not above total/limit |
| `BundleBuilder.Summarize` | assets/build-own-bundle.js:215-218 | items remaining is never negative; the bundle is complete exactly when the total reaches the limit, which is exactly when nothing remains; progress is capped at 100 and is full exactly when the bundle is complete |
| `BundleBuilder.LimitReachedIsComplete` | assets/build-own-bundle.js:412-413 | `limitReached` of the button update is the summary's `isComplete` |
| `BundleBuilder.UpdateAddButtonStates` | assets/build-own-bundle.js:411-441 | the button update changes the cards and nothing else in the builder |
| `BundleBuilder.ButtonStates` | assets/build-own-bundle.js:411-441 | every shown add button and every shown plus button is disabled exactly when the limit is reached; hidden buttons and all other card state are untouched |
| `BundleBuilder.AddClick` | assets/build-own-bundle.js:51-72 | the click is refused, with the state unchanged, exactly when the total plus the input's quantity (an input of 0 counts as 1) passes the limit; otherwise the product is added with the input's value, the add button is hidden and the selector is shown |
| `BundleBuilder.SetCardQuantity` | assets/build-own-bundle.js:79-82 | the card's input and the entry with its title (if any) both get the new quantity; no other entry changes |
| `BundleBuilder.ResetCard` | assets/build-own-bundle.js:83-90 | the card's entry is removed, and the card shows its add button again with the input at 1 |
| `BundleBuilder.MinusClick` | assets/build-own-bundle.js:76-91 | above 1, the input and the entry go down by one; at 1 (or an input reading 0), the entry is removed and the card is reset |
| `BundleBuilder.PlusClick` | assets/build-own-bundle.js:95-108 | the click is refused, with the state unchanged, exactly when the total has reached the limit; otherwise the input and the entry become the input's value plus one |
| `BundleBuilder.RemoveFromBundle` | assets/build-own-bundle.js:166-182 | exactly entry `i` is deleted, and the card that added it is reset to its add button with the input at 1 |
| `BundleBuilder.UpdateQuantity` | assets/build-own-bundle.js:184-201 | a quantity of 0 or less removes entry `i`; otherwise entry `i` gets exactly that quantity, every other entry is unchanged, and the total moves by the difference |
| `BundleBuilder.SummaryMinus` | assets/build-own-bundle.js:355-361 | an entry of quantity 1 or less is removed; a larger one goes down by exactly one |
| `BundleBuilder.SummaryPlus` | assets/build-own-bundle.js:363-376 | the click is refused, with the state unchanged, exactly when the total has reached the limit; otherwise the entry goes up by exactly one |
| `BundleBuilder.SelectTab` | assets/build-own-bundle.js:20-36 | the clicked tab's limit and label become current, the builder is in step with it, and the list and cards are untouched |
| `BundleBuilder.Initial` | assets/build-own-bundle.js:2-14 | a new builder has no entries and a non-zero limit; without an active tab, the limit is 14 and the label "10% off" |
| `BundleInvariant.ButtonsKeepInv` | assets/build-own-bundle.js:411-441 | the button update keeps the invariant, the list and the limit |
| `BundleInvariant.RemoveEntryKeeps` | assets/build-own-bundle.js:166-179 | deleting an entry and resetting its card keeps the invariant on the list and cards |
| `BundleInvariant.AddKeeps` | assets/build-own-bundle.js:51-72 | an add click on a shown add button keeps the invariant and the limit; an accepted one raises the total by the card's quantity; a total within the limit stays within it |
| `BundleInvariant.CardQuantityKeeps` | assets/build-own-bundle.js:142-152 | setting a card's input and its entry to a positive quantity keeps the invariant, and changes the total by the difference when the product is in the bundle |
| `BundleInvariant.CardRemoveKeeps` | assets/build-own-bundle.js:83-90 | resetting a card whose input reads 1 keeps the invariant and does not raise the total |
| `BundleInvariant.MinusKeeps` | assets/build-own-bundle.js:76-91 | the card's minus click keeps the invariant and the limit, and never raises the total |
| `BundleInvariant.PlusKeeps` | assets/build-own-bundle.js:95-108 | the card's plus click keeps the invariant and the limit, raises the total by at most one, and keeps a total within the limit within it |
| `BundleInvariant.RemoveKeeps` | assets/build-own-bundle.js:338-352 | the summary's remove click keeps the invariant and strictly lowers the total |
| `BundleInvariant.UpdateKeeps` | assets/build-own-bundle.js:184-201 | setting an entry to a positive quantity keeps the invariant and the limit |
| `BundleInvariant.SummaryMinusKeeps` | assets/build-own-bundle.js:355-361 | the summary's minus click keeps the invariant and strictly lowers the total |
| `BundleInvariant.SummaryPlusKeeps` | assets/build-own-bundle.js:363-376 | the summary's plus click keeps the invariant, and keeps a total within the limit within it |
| `BundleInvariant.ApplyKeepsInv` | assets/build-own-bundle.js:16-111 | every click the page can deliver keeps the invariant |
| `BundleInvariant.ApplyWithinLimit` | assets/build-own-bundle.js:55-61 | on a page satisfying the invariant (one card per product, inputs matching their entries), every deliverable click other than a tab click leaves the limit as it was and never takes the total past it |
| `BundleInvariant.RunWithinLimit` | assets/build-own-bundle.js:55-108 | on a page satisfying the invariant (one card per product, inputs matching their entries), for a fixed tab, no sequence of clicks takes the total past the product limit, and titles stay unique throughout |
| `BundleInvariant.RunKeepsInv` | assets/build-own-bundle.js:336-376 | any sequence of clicks, tab clicks included, keeps the invariant |
| `BundleInvariant.InitialInv` | assets/build-own-bundle.js:2-14 | a fresh page whose cards have distinct titles and show their add buttons with an input of at least 1 satisfies the invariant, with a total of 0 |
| `BundleInvariant.PlusTrustsCardInput` | assets/build-own-bundle.js:97-106 | the plus guard checks the total, not the input: a card input typed up to 20 beside an entry of 1 lets one accepted click set the total to 21 under a limit of 14 |
| `BundleInvariant.DuplicateCardsPassLimit` | assets/build-own-bundle.js:41-136 | entries are keyed by title but every card gets its own buttons: on a fresh page listing one product on two cards with inputs at 1 and a limit of 2, six clicks on shown, enabled controls take the total to 3 |
| `BundleInvariant.AddChargesZeroAsOne` | assets/build-own-bundle.js:56-63 | an input of 0 is charged as 1 against the limit but added as 0, so a zero-quantity entry enters the bundle |
| `QuantityRules.SetQuantityBounds` | assets/gift-card-product-info.js:343-363 | the minimum respects the data minimum, the room left under the maximum, and the step once the cart holds the minimum, and it is one of those bounds; the value equals the minimum; the maximum is kept exactly when the room left is non-zero |
| `QuantityRules.MinIsGreatestAdmissible` | assets/gift-card-product-info.js:351-354 | the minimum written is the largest one every applicable bound admits |
| `QuantityRules.NoAttributes` | assets/gift-card-product-info.js:344-349 | with no attributes, the input offers 1 to unlimited and reads 1 |
| `QuantityRules.FullMaxIsRemoved` | assets/gift-card-product-info.js:358-362 | a maximum the cart has used up exactly counts as no maximum, and the minimum drops to 0 or below |
| `Catalog.VariantsData` | assets/gift-card-product-info.js:512-522 | the parsed catalog list, or the empty list when the script is missing or unreadable |
| `Catalog.Find` | assets/gift-card-product-info.js:537 | the result is none exactly when no catalog entry has the id; otherwise it is the first entry with that id |
| `Catalog.UnreadableCatalogMisses` | assets/gift-card-product-info.js:536-542 | with an unreadable catalog, every bundle choice is a lookup miss |
| `Catalog.ResolveHtml` | assets/gift-card-product-info.js:701-707 | a string is used as is; an object gives its `value`, else its `html`, else its JSON text; null gives nothing |
| `Picker.BundleIds` | assets/gift-card-product-info.js:480-483 | the bundle variant ids of the radios, one per radio, in document order |
| `Picker.ClearBundles` | assets/gift-card-product-info.js:635-646 | no bundle radio stays checked; every radio loses its `checked` attribute and its label's classes; the widget reads as deselected; ids, titles and descriptions are kept |
| `Picker.UncheckBundles` | assets/gift-card-bundle.js:95-102 | no bundle radio stays checked and the widget reads as deselected; everything else about each radio is kept |
| `Picker.ClearingVersionsDiffer` | assets/gift-card-bundle.js:95-102 | the standalone clearing followed by the component's is the component's alone; a label the component's clearing strips survives the standalone one |
| `Picker.ClearVariants` | assets/gift-card-product-info.js:648-666 | no variant radio stays checked; every label loses `active` and `selected`; every option loses `selected`; the picker reads as deselected; hiding and grouping are untouched |
| `Picker.UncheckVariantRadios` | assets/gift-card-bundle.js:286-307 | the same radios are kept, each unchecked with its label losing `active` and `selected`; no variant radio stays checked and the picker reads as deselected; dropdown options and fieldsets are untouched |
| `Picker.UncheckAfterClear` | assets/gift-card-bundle.js:152-174 | unchecking the radios again after a full clear of the picker changes nothing |
| `Picker.CheckVariantRadio` | assets/gift-card-product-info.js:611-613 | the radio that fires the change is checked, the rest of its group is unchecked, and other groups keep their state |
| `Picker.CheckBundleRadio` | assets/gift-card-product-info.js:529-534 | the radio that fires the change is checked and every other bundle radio is unchecked |
| `Picker.FirstMatch` | assets/gift-card-bundle.js:43 | the first input or option carrying the option value id, or -1 exactly when none does |
| `Picker.HideRadiosFacts` | assets/gift-card-bundle.js:42-48 | a radio and its label end hidden exactly when they were hidden before or the radio is the first match of some bundle id; nothing else changes |
| `Picker.HideOptionsFacts` | assets/gift-card-bundle.js:50-54 | an option ends hidden and disabled exactly when it was before or it is the first match of some bundle id; nothing else changes |
| `Picker.HideEmptyFieldsets` | assets/gift-card-bundle.js:57-64 | a fieldset is hidden exactly when it was hidden before or none of its inputs is visible |
| `Picker.HideBundleVariants` | assets/gift-card-bundle.js:41-65 | the two steps together: the hiding facts of radios, options and fieldsets, with checked state and ids kept |
| `MediaGallery.FilterFacts` | assets/gift-card-product-info.js:304-310 | the filter keeps exactly the ids whose membership matches, and unique ids stay unique |
| `MediaGallery.PrependMissingFacts` | assets/gift-card-product-info.js:296-302 | the backward prepend loop puts the fetched ids the gallery lacked in front, in fetched order |
| `MediaGallery.Prepared` | assets/gift-card-product-info.js:289-313 | after the two loops, the gallery is the missing fetched ids followed by the shown ids the fetched gallery still has |
| `MediaGallery.LastIndex` | assets/gift-card-product-info.js:282-284 | the map rebuilt from the list keeps the last item with the id, and has none exactly when the id is absent |
| `MediaGallery.MoveBefore` | assets/gift-card-product-info.js:320-323 | moving an item keeps the list's length |
| `MediaGallery.MoveBeforeFacts` | assets/gift-card-product-info.js:319-323 | moving an item keeps the same items; moved forward to `k`, it lands at `k` and the earlier positions stay unchanged |
| `MediaGallery.SortFrom` | assets/gift-card-product-info.js:316-328 | the ordering loop only rearranges the gallery's items |
| `MediaGallery.Reconcile` | assets/gift-card-product-info.js:288-328 | the reconciled gallery holds exactly the ids of the fetched gallery |
| `MediaGallery.PreparedIsPermutation` | assets/gift-card-product-info.js:296-313 | with unique ids on both sides, the list before ordering holds each fetched id exactly once |
| `MediaGallery.SortFromSorts` | assets/gift-card-product-info.js:316-328 | started on a permutation of unique fetched ids whose first `k` positions already agree, the ordering loop ends on the fetched order |
| `MediaGallery.DuplicateIdMissesFetched` | assets/gift-card-product-info.js:296-327 | with a repeated id, a shown `[a]` and a fetched `[a, a]` reconcile to `[a]`, not the fetched gallery, while an unchanged `[a, a]` stays as fetched |
| `MediaGallery.ReconcileMatchesFetched` | assets/gift-card-product-info.js:296-328 | with unique ids on both sides, the reconciled gallery is the fetched one, in the fetched order |
| `MediaGallery.UpdateMedia` | assets/gift-card-product-info.js:272-335 | without a featured media id nothing happens; otherwise, when both galleries' lists exist, the shown ids become the fetched ids, and `<section>-<id>` becomes active exactly when the component has a `<media-gallery>`; without one nothing changes |
| `Money.FormatMoney` | assets/gift-card-bundle.js:313 | the text is "$", an optional minus sign exactly for a negative amount, the whole units, a point, and two digits that give the cents |
| `Money.FormatMoneyRoundTrip` | assets/gift-card-bundle.js:309-314 | reading the formatted text back gives exactly the amount of cents, so the format loses nothing |
| `UrlParams.SetFacts` | assets/gift-card-bundle.js:220-224 | after `set`, the parameter reads as the new value, appears exactly once, and every other parameter is kept in its order |
| `ProductInfo.SetFormIds` | assets/gift-card-product-info.js:244-252 | every form of the component's section reads the variant id; other forms keep their id; no form's section or Gift Type changes |
| `ProductInfo.LastFormIdWins` | assets/gift-card-product-info.js:244-252 | writing the ids twice leaves the second id, so the forms submit the last variant chosen |
| `ProductInfo.FormIdsCommuteWithGiftType` | assets/gift-card-product-info.js:302-303 | writing the id and setting or clearing the Gift Type give the same forms in either order, for any two sections |
| `ProductInfo.SetGiftType` | assets/gift-card-product-info.js:578-592 | every form of the section carries the Gift Type with the title, created when missing; other forms and all id inputs are untouched |
| `ProductInfo.ClearGiftType` | assets/gift-card-product-info.js:594-605 | the Gift Type input is removed from every form of the section; other forms and all id inputs are untouched |
| `ProductInfo.ClearUndoesSet` | assets/gift-card-product-info.js:578-605 | clearing after setting leaves the forms as clearing alone would |
| `ProductInfo.UpdateDescription` | assets/gift-card-product-info.js:697-710 | a non-empty resolved HTML replaces the block's content, an empty one keeps it, and a page without the block is left alone |
| `ProductInfo.UpdateDescriptionIdempotent` | assets/gift-card-product-info.js:709 | updating twice with the same payload is the same as updating once |
| `ProductInfo.RestoreDefault` | assets/gift-card-product-info.js:616 | only the description changes, and it changes only when the stored default is truthy |
| `ProductInfo.RequestParamsFacts` | assets/gift-card-product-info.js:170-176 | `section_id` is present exactly when the whole page is not wanted, and it carries the section and comes first; `option_values` is present exactly when values were chosen, and it carries them joined by commas |
| `ProductInfo.RequestUrlQuery` | assets/gift-card-product-info.js:169-179 | the query read back from the request URL is exactly the serialised parameter list |
| `ProductInfo.VariantUrl` | assets/gift-card-product-info.js:256 | the address starts with the URL, and its query is `variant=<id>` when there is an id and absent otherwise |
| `ProductInfo.UpdateUrl` | assets/gift-card-product-info.js:254-261 | a share button, when there is one, gets the shop's origin followed by the variant address; without one there is none afterwards; the history entry gets that address unless `data-update-url` is "false" |
| `ProductInfo.OnBundleChange` | assets/gift-card-product-info.js:529-576 | a bundle missing from the catalog changes nothing beyond the browser's check. A found one clears the picker, writes its id into the section's forms, records the radio's title (else the catalog's) as Gift Type, requests the bundle's section, and marks the widget active |
| `ProductInfo.OnVariantRadioChange` | assets/gift-card-product-info.js:611-622 | every bundle radio is cleared, the default description is restored, and the picker is active with the chosen radio checked; forms and requests are untouched |
| `ProductInfo.OnDropdownChange` | assets/gift-card-product-info.js:624-632 | every bundle radio is cleared, the default description is restored, and the picker is marked active |
| `ProductInfo.OnOptionValueChange` | assets/gift-card-product-info.js:67-94 | events from outside the component are ignored. Otherwise a bundle widget is cleared and the default restored, the Gift Type leaves the section's forms, the product URL is chosen and remembered, and the section (or, on a swap with URL updates, the whole page) is requested for the values |
| `ProductInfo.Connect` | assets/gift-card-product-info.js:455-477 | the default description and catalog are stored (an unreadable catalog counts as empty), and the bundle variants are hidden from a present picker exactly when there are bundle radios |
| `ProductInfo.FoundBundleExcludesVariants` | assets/gift-card-product-info.js:543-561 | after a found bundle, that bundle alone is checked and active, and the picker is deselected with nothing checked |
| `ProductInfo.VariantExcludesBundles` | assets/gift-card-product-info.js:612-620 | after a native radio choice, a variant is checked, no bundle is, and the widgets' flags say so |
| `ProductInfo.MissedBundleKeepsVariant` | assets/gift-card-product-info.js:536-542 | a bundle the catalog lacks leaves a checked native radio checked beside it, and the forms and request unchanged |
| `ProductInfo.OptionChangeDropsGiftType` | assets/gift-card-product-info.js:77-78 | a bundle choice followed by a native option change leaves the section's forms without a Gift Type |
| `ProductInfo.ListenerOrderIrrelevant` | assets/gift-card-product-info.js:611-622 | the radio's own listener and the option-change handler commute |
| `ProductInfo.ClearBundlesIdempotent` | assets/gift-card-product-info.js:635-646 | clearing the bundle widget twice is clearing it once |
| `GiftCardBundle.SetFormVariant` | assets/gift-card-bundle.js:206-218 | every form of the section that has an id input gets the variant id; other forms are untouched |
| `GiftCardBundle.LastFormVariantWins` | assets/gift-card-bundle.js:206-218 | writing the variant twice leaves the second one |
| `GiftCardBundle.FormWritesAgree` | assets/gift-card-bundle.js:206-218 | on forms that all have an id input, the standalone form write gives the same ids as the component's `updateVariantInputs` |
| `GiftCardBundle.UpdatePrice` | assets/gift-card-bundle.js:226-235 | a price of 0 leaves the text; any other price is shown as text that reads back as exactly that amount; a section without a price element is left alone |
| `GiftCardBundle.UpdateSubmit` | assets/gift-card-bundle.js:237-257 | the button is disabled exactly when the variant is unavailable, and its caption is the theme's add-to-cart or sold-out text, else "Add to cart" or "Sold out" |
| `GiftCardBundle.LastSubmitWins` | assets/gift-card-bundle.js:237-257 | a second update overrides the first completely: the button shows the last variant's availability |
| `GiftCardBundle.UpdateDescription` | assets/gift-card-bundle.js:259-284 | a non-empty resolved HTML replaces the content; an empty one puts the stored default there instead |
| `GiftCardBundle.OnBundleChange` | assets/gift-card-bundle.js:137-191 | a bundle missing from the catalog changes nothing beyond the browser's check. A found one clears the picker, writes the form id, sets `variant`, shows its price and availability, shows its own description when it has one, and marks the widget active |
| `GiftCardBundle.OnVariantRadioChange` | assets/gift-card-bundle.js:71-82 | with listeners installed: bundle radios are unchecked, the default description is put back, and the picker is active; without them, only the browser's check happens |
| `GiftCardBundle.OnDropdownChange` | assets/gift-card-bundle.js:84-92 | with listeners installed: bundle radios are unchecked, the default description is put back, and the picker is active; without them, nothing happens |
| `GiftCardBundle.Init` | assets/gift-card-bundle.js:7-34 | the catalog and default description are read, and the picker is hidden and listened to exactly when it exists and there are bundle radios |
| `GiftCardBundle.FoundBundleFacts` | assets/gift-card-bundle.js:151-178 | after a found bundle, it is checked and active, the picker is deselected, and the address names the variant exactly once, with every other parameter kept |
| `GiftCardBundle.VariantExcludesBundles` | assets/gift-card-bundle.js:71-82 | after a native radio choice, a variant is checked, no bundle is, and the widgets' flags say so |
| `GiftCardBundle.EmptyDescriptionVersionsDiffer` | assets/gift-card-bundle.js:279-283 | on an empty resolved description, the component keeps what is shown while the standalone script shows its default |
| `GiftCardBundle.NoDefaultEmptiesDescription` | assets/gift-card-bundle.js:75 | without a default description script, choosing a native variant empties the description block |
| `GiftCardBundle.StandaloneKeepsLabels` | assets/gift-card-bundle.js:95-102 | the standalone script's variant choice leaves bundle label classes that the component's clearing removes |

## Left out

- `BundleInvariant.RunWithinLimit` and `BundleInvariant.ApplyWithinLimit` hold only under the invariant. It has two hypotheses the page does not enforce. First, the cards have distinct product titles: the source keys entries by title, and `BundleInvariant.DuplicateCardsPassLimit` shows the limit passed when one product is on two cards. Second, no input is ever typed into: typing is not modelled as an event, and `BundleInvariant.PlusTrustsCardInput` shows the limit passed after it.
- `Picker.CheckBundleRadio` takes all bundle radios to form one radio group (one `name`), so checking one unchecks the others. `ProductInfo.FoundBundleExcludesVariants` relies on that markup for "that bundle alone is checked".
- `Picker.BundleIds` reads an id from each of the widget's radios. The source selects `input[data-bundle-variant-id]`, so the model takes every bundle radio to carry that attribute and every element carrying it to be a bundle radio.
- `MediaGallery.UpdateMedia` takes a `<media-gallery>` to define `setActiveMedia`; the source's second `?.` also skips an element without it.
- `MediaGallery.ReconcileMatchesFetched` assumes media ids are unique in both galleries. With a duplicated id, the fetched order need not be reached: `MediaGallery.DuplicateIdMissesFetched` shows a shown `[a]` and a fetched `[a, a]` reconciling to `[a]`, and an unchanged `[a, a]` reaching the fetched order.
- `MediaGallery.UpdateMedia` states only that the shown ids become the fetched ids. The order is stated by `MediaGallery.ReconcileMatchesFetched`. The featured media id is a string, and only a missing or empty one returns early; the source's `!variantFeaturedMediaId` also returns early on the number 0, which is not a Shopify media id.
- `MediaGallery.UpdateMedia` takes every `li` of the gallery to be a media item. The `nth-of-type` position is counted over media items only.
- `ProductInfo.RequestUrlQuery` assumes the product URL itself has no `?`. No URL escaping is modelled: values are pasted as the template strings paste them.
- `BundleBuilder.Progress` takes the floor of the exact ratio. The source divides in floating point.
- `BundleBuilder.SummaryPlus` says nothing about an accepted click on an entry with a negative quantity. `BundleBuilder.UpdateQuantity` states that case: such an entry is removed.
- `Money.FormatMoney` models integer cents only. Fractional amounts, `toFixed` rounding and `Shopify.formatMoney` are foreign or floating-point behaviour.
- A card's quantity input is an integer that `parseInt` has already read. Text that parses to NaN is not modelled. `parseInt(x) || d` is modelled on the value 0 and on a missing attribute.
- The configuration refresh in `renderSummary` assumes the summary container exists. Without it, the source returns before the refresh.
- Presentation and timers are left out:
  - the summary's HTML templates and mobile expand;
  - `showLimitReachedMessage` and `showAddedFeedback`;
  - button titles and the `disabled` class.
- `addBundleToCart` is a placeholder that only logs and waits.
- Network fetches, `AbortController` and `DOMParser` are left out. So are the response callbacks `handleUpdateProductInfo` and `handleSwapProduct`, with the steps they drive: `renderProductInfo`, `updateOptionValues`, `setUnavailable`, `fetchQuantityRules` and `updateQuantityRules`. A request is modelled as the URL it asks for.
- `updateMedia` moves DOM nodes, calls `setActiveMedia` and copies the modal content. Only the id sequence and the active media key are modelled.
- Browser lifecycle is left out:
  - the `MutationObserver` retry and the once-only flags;
  - the lookup order of `getBundleSelects`;
  - `disconnectedCallback`;
  - event capture and `stopPropagation`.
- `publish`/`subscribe`, `resetProductFormState`, `PaymentButton`, `ProductModel` and `SectionId` are foreign calls whose code is not part of this model.
- The component's `updatePriceDisplay`, `updateAddToCartButton` and `updateDefaultVariantPickerSelection` are never called in that file. The standalone script's versions are modelled.
- A component product form always has its `id` input. The source would throw on a form without one.
- Fieldset inputs are modelled as the picker's radios. The option the browser shows as selected in a dropdown is not modelled, only the `selected` attributes.
- The standalone `updateURL` changes only the query parameters. The rest of the address and percent-encoding are not modelled.
- Description payloads are strings, objects or null. JSON numbers, booleans and arrays are left out.
- `setQuantityBoundries` is modelled on attributes that are absent or parse to integers. NaN and the `quantityUpdate` event are left out.

=== FILE: bundle_builder.dfy ===
/** The "build your own bundle" picker: an ordered list of line items keyed
    by product title, the product cards that feed it, the tab that sets the
    product limit and discount label, and the click handlers that mutate
    the list under the limit guard. The DOM is abstracted into records:
    a card is its title, its add button and quantity selector state, and
    the integer its quantity input holds. */
module BundleBuilder {
  import opened Common

  const DefaultProductLimit := 14
  const DefaultDiscountText := "10% off"

  /** One selected product. `card` is the index of the card that added
      it, standing in for the card element the source keeps. */
  datatype LineItem = LineItem(
    title: string, link: string, image: string, price: string,
    quantity: int, card: nat)

  /** A product card: its heading, link, image and price text, whether
      the add button and the quantity selector carry `hidden`, the value of
      its quantity input, and the disabled state of its add and plus
      buttons. */
  datatype Card = Card(
    title: string, link: string, image: string, price: string,
    addHidden: bool, selectorHidden: bool, value: int,
    addDisabled: bool, plusDisabled: bool)

  /** A bundle tab's `data-product-limit` (None when missing or not a
      number) and `data-discount-text` (`""` when missing). */
  datatype Tab = Tab(productLimit: Option<int>, discountText: string)

  /** The builder: the selected products in insertion order, the cards,
      the tabs, the tab marked `active` (if any), and the current limit
      and discount label. */
  datatype Builder = Builder(
    items: seq<LineItem>, cards: seq<Card>, tabs: seq<Tab>,
    activeTab: Option<nat>, currentTab: nat,
    productLimit: int, discountText: string)

  // ----- configuration -----

  /** `parseInt(tab.dataset.productLimit) || 14`: a missing, unparsable or
      zero limit falls back to 14; the result is never zero. */
  function LimitOf(t: Tab): (limit: int)
    ensures limit != 0
    ensures t.productLimit.None? || t.productLimit == Some(0) ==> limit == DefaultProductLimit
    ensures t.productLimit.Some? && t.productLimit.value != 0 ==> limit == t.productLimit.value
  {
    ParsedOr(t.productLimit, DefaultProductLimit)
  }

  /** `tab.dataset.discountText || '10% off'`. */
  function DiscountOf(t: Tab): (text: string)
    ensures text != ""
    ensures t.discountText == "" ==> text == DefaultDiscountText
    ensures t.discountText != "" ==> text == t.discountText
  {
    OrElse(t.discountText, DefaultDiscountText)
  }

  /** The configuration refresh at the start of `renderSummary`: when a
      tab is marked active, the limit and label are read from it again. */
  function RefreshConfig(b: Builder): Builder {
    if b.activeTab.Some? && b.activeTab.value < |b.tabs| then
      b.(productLimit := LimitOf(b.tabs[b.activeTab.value]),
         discountText := DiscountOf(b.tabs[b.activeTab.value]))
    else b
  }

  /** The stored limit and label are those of the active tab. */
  predicate Synced(b: Builder) {
    b.activeTab.Some? && b.activeTab.value < |b.tabs| ==>
      b.productLimit == LimitOf(b.tabs[b.activeTab.value])
      && b.discountText == DiscountOf(b.tabs[b.activeTab.value])
  }

  /** Once the configuration has been read from the active tab, reading
      it again changes nothing: the limit stays fixed between tab
      clicks. */
  lemma RefreshIsStable(b: Builder)
    ensures Synced(RefreshConfig(b))
    ensures Synced(b) ==> RefreshConfig(b) == b
  {
  }

  // ----- the line-item list -----

  /** `selectedProducts.reduce((sum, p) => sum + p.quantity, 0)`. */
  function Total(items: seq<LineItem>): int {
    if |items| == 0 then 0 else Total(items[..|items| - 1]) + items[|items| - 1].quantity
  }

  lemma {:induction false} TotalAppend(a: seq<LineItem>, b: seq<LineItem>)
    ensures Total(a + b) == Total(a) + Total(b)
    decreases |b|
  {
    if |b| == 0 {
      assert a + b == a;
    } else {
      assert (a + b)[..|a + b| - 1] == a + b[..|b| - 1];
      TotalAppend(a, b[..|b| - 1]);
    }
  }

  /** Replacing one entry changes the total by the difference of the two
      quantities. */
  lemma TotalUpdate(items: seq<LineItem>, i: nat, x: LineItem)
    requires i < |items|
    ensures Total(items[i := x]) == Total(items) - items[i].quantity + x.quantity
  {
    assert items == items[..i] + [items[i]] + items[i + 1..];
    assert items[i := x] == items[..i] + [x] + items[i + 1..];
    TotalAppend(items[..i] + [items[i]], items[i + 1..]);
    TotalAppend(items[..i] + [x], items[i + 1..]);
    TotalAppend(items[..i], [items[i]]);
    TotalAppend(items[..i], [x]);
  }

  /** Deleting one entry lowers the total by its quantity. */
  lemma TotalRemove(items: seq<LineItem>, i: nat)
    requires i < |items|
    ensures Total(items[..i] + items[i + 1..]) == Total(items) - items[i].quantity
  {
    var a, b := items[..i], items[i + 1..];
    assert items == (a + [items[i]]) + b;
    TotalAppend(a + [items[i]], b);
    assert (a + [items[i]])[..|a|] == a;
    assert Total(a + [items[i]]) == Total(a) + items[i].quantity;
    TotalAppend(a, b);
  }

  predicate HasTitle(items: seq<LineItem>, title: string) {
    exists i :: 0 <= i < |items| && items[i].title == title
  }

  /** No two entries share a title. */
  predicate UniqueTitles(items: seq<LineItem>) {
    forall i, j :: 0 <= i < j < |items| ==> items[i].title != items[j].title
  }

  /** `selectedProducts.findIndex(p => p.title === title)`. */
  function FindTitle(items: seq<LineItem>, title: string): (k: int)
    ensures -1 <= k < |items|
    ensures k >= 0 <==> HasTitle(items, title)
    ensures k >= 0 ==> items[k].title == title && forall j :: 0 <= j < k ==> items[j].title != title
  {
    if |items| == 0 then -1
    else
      var k := FindTitle(items[..|items| - 1], title);
      if k >= 0 then k
      else if items[|items| - 1].title == title then |items| - 1
      else
        assert forall j :: 0 <= j < |items| - 1 ==> items[j].title != title by {
          forall j | 0 <= j < |items| - 1 ensures items[j].title != title {
            assert items[j] == items[..|items| - 1][j];
          }
        }
        -1
  }

  /** With unique titles, an entry is found exactly at its own index. */
  lemma FindUnique(items: seq<LineItem>, i: nat)
    requires UniqueTitles(items) && i < |items|
    ensures FindTitle(items, items[i].title) == i
  {
  }

  /** `addProductToBundle`: an entry with the card's title has its
      quantity raised by `quantity` and nothing else moves; otherwise a new
      entry with that quantity is appended. Either way the total rises by
      `quantity` and titles stay unique. */
  function AddProduct(items: seq<LineItem>, card: Card, c: nat, quantity: int): (r: seq<LineItem>)
    ensures Total(r) == Total(items) + quantity
    ensures HasTitle(items, card.title) ==>
      var i := FindTitle(items, card.title);
      && |r| == |items|
      && r[i] == items[i].(quantity := items[i].quantity + quantity)
      && forall j :: 0 <= j < |items| && j != i ==> r[j] == items[j]
    ensures !HasTitle(items, card.title) ==>
      && |r| == |items| + 1 && r[..|items|] == items
      && r[|items|] == LineItem(card.title, card.link, card.image, card.price, quantity, c)
    ensures UniqueTitles(items) ==> UniqueTitles(r)
  {
    var i := FindTitle(items, card.title);
    if i >= 0 then
      TotalUpdate(items, i, items[i].(quantity := items[i].quantity + quantity));
      items[i := items[i].(quantity := items[i].quantity + quantity)]
    else
      var entry := LineItem(card.title, card.link, card.image, card.price, quantity, c);
      TotalAppend(items, [entry]);
      assert Total([entry]) == quantity by { assert [entry][..0] == []; }
      assert (items + [entry])[..|items|] == items;
      items + [entry]
  }

  /** The list part of `updateProductQuantityFromCard`: the entry with the
      title gets exactly `quantity` (not added to it); an absent title
      changes nothing. */
  function SetQuantityByTitle(items: seq<LineItem>, title: string, quantity: int): (r: seq<LineItem>)
    ensures |r| == |items|
    ensures forall j :: 0 <= j < |r| ==> r[j].title == items[j].title && r[j].card == items[j].card
    ensures !HasTitle(items, title) ==> r == items
    ensures HasTitle(items, title) ==>
      var i := FindTitle(items, title);
      && r[i] == items[i].(quantity := quantity)
      && (forall j :: 0 <= j < |r| && j != i ==> r[j] == items[j])
      && Total(r) == Total(items) - items[i].quantity + quantity
  {
    var i := FindTitle(items, title);
    if i >= 0 then
      TotalUpdate(items, i, items[i].(quantity := quantity));
      items[i := items[i].(quantity := quantity)]
    else items
  }

  /** `selectedProducts.splice(i, 1)`: exactly entry `i` is deleted and
      the rest keep their order; an index past the end changes nothing. */
  function RemoveAt(items: seq<LineItem>, i: nat): (r: seq<LineItem>)
    ensures i >= |items| ==> r == items
    ensures i < |items| ==>
      && |r| == |items| - 1
      && (forall j :: 0 <= j < i ==> r[j] == items[j])
      && (forall j :: i <= j < |r| ==> r[j] == items[j + 1])
      && Total(r) == Total(items) - items[i].quantity
    ensures UniqueTitles(items) ==> UniqueTitles(r)
    ensures UniqueTitles(items) && i < |items| ==> !HasTitle(r, items[i].title)
  {
    if i < |items| then
      TotalRemove(items, i);
      items[..i] + items[i + 1..]
    else items
  }

  /** The list part of `removeProductFromCard`: the entry with the title
      is deleted; an absent title is a no-op. */
  function RemoveByTitle(items: seq<LineItem>, title: string): (r: seq<LineItem>)
    ensures !HasTitle(items, title) ==> r == items
    ensures HasTitle(items, title) ==>
      && |r| == |items| - 1
      && Total(r) == Total(items) - items[FindTitle(items, title)].quantity
    ensures UniqueTitles(items) ==> UniqueTitles(r) && !HasTitle(r, title)
  {
    var i := FindTitle(items, title);
    if i >= 0 then RemoveAt(items, i) else items
  }

  // ----- the summary -----

  /** The values `renderSummary` derives. */
  datatype Summary = Summary(
    totalItems: int, progressPercentage: int, itemsRemaining: int,
    isComplete: bool, isEmpty: bool)

  /** floor(a / b) for any non-zero divisor (Dafny's `/` is Euclidean). */
  function FloorDiv(a: int, b: int): int
    requires b != 0
  {
    if b > 0 then a / b else (-a) / (-b)
  }

  lemma FloorDivBounds(a: int, b: int)
    requires b > 0
    ensures FloorDiv(a, b) * b <= a < FloorDiv(a, b) * b + b
  {
  }

  lemma PercentFloor(total: int, limit: int)
    requires limit > 0
    ensures var q := FloorDiv(100 * total, limit);
      && (q >= 100 <==> total >= limit)
      && (total >= 0 ==> q >= 0)
      && q * limit <= 100 * total < q * limit + limit
  {
    var q := FloorDiv(100 * total, limit);
    FloorDivBounds(100 * total, limit);
  }

  /** The progress percentage `min(total / limit * 100, 100)`, taken as
      the floor of the exact ratio: capped at 100, reaching 100 exactly at
      the limit, and otherwise the largest whole percentage not above the
      exact one. */
  function Progress(total: int, limit: int): (pct: int)
    requires limit != 0
    ensures pct <= 100
    ensures limit > 0 && total >= 0 ==> pct >= 0
    ensures limit > 0 ==> (pct == 100 <==> total >= limit)
    ensures limit > 0 && pct < 100 ==> pct * limit <= 100 * total < (pct + 1) * limit
  {
    if limit > 0 then
      PercentFloor(total, limit);
      Min(FloorDiv(100 * total, limit), 100)
    else Min(FloorDiv(100 * total, limit), 100)
  }

  /** `renderSummary`'s derived values: the remaining count is never
      negative, the bundle is complete exactly when the total reaches the
      limit, which is exactly when nothing remains, and the progress is
      capped at 100. */
  function Summarize(items: seq<LineItem>, limit: int): (s: Summary)
    requires limit != 0
    ensures s.totalItems == Total(items)
    ensures s.itemsRemaining >= 0
    ensures s.isComplete <==> Total(items) >= limit
    ensures s.isComplete <==> s.itemsRemaining == 0
    ensures !s.isComplete ==> s.itemsRemaining == limit - Total(items)
    ensures s.progressPercentage <= 100
    ensures limit > 0 ==> (s.progressPercentage == 100 <==> s.isComplete)
    ensures s.isEmpty <==> |items| == 0
  {
    var total := Total(items);
    Summary(total, Progress(total, limit), Max(limit - total, 0), total >= limit, |items| == 0)
  }

  /** `limitReached` of `updateAddButtonStates`. */
  predicate LimitReached(b: Builder) {
    Total(b.items) >= b.productLimit
  }

  /** `limitReached` is the summary's `isComplete`. */
  lemma LimitReachedIsComplete(b: Builder)
    requires b.productLimit != 0
    ensures LimitReached(b) <==> Summarize(b.items, b.productLimit).isComplete
  {
  }

  /** `updateAddButtonStates`: only the buttons' disabled flags change. */
  function UpdateAddButtonStates(b: Builder): (r: Builder)
    ensures r == b.(cards := r.cards)
    ensures |r.cards| == |b.cards|
  {
    var reached := LimitReached(b);
    b.(cards := seq(|b.cards|, c requires 0 <= c < |b.cards| =>
      var card := b.cards[c];
      card.(addDisabled := if card.addHidden then card.addDisabled else reached,
            plusDisabled := if card.selectorHidden then card.plusDisabled else reached)))
  }

  /** Every add button and plus button that is not hidden is disabled
      exactly when the limit is reached; hidden buttons and everything else
      on the cards are left alone. */
  lemma ButtonStates(b: Builder)
    ensures var r := UpdateAddButtonStates(b);
      forall c :: 0 <= c < |r.cards| ==>
      && r.cards[c] == b.cards[c].(addDisabled := r.cards[c].addDisabled, plusDisabled := r.cards[c].plusDisabled)
      && (!b.cards[c].addHidden ==> (r.cards[c].addDisabled <==> LimitReached(b)))
      && (b.cards[c].addHidden ==> r.cards[c].addDisabled == b.cards[c].addDisabled)
      && (!b.cards[c].selectorHidden ==> (r.cards[c].plusDisabled <==> LimitReached(b)))
      && (b.cards[c].selectorHidden ==> r.cards[c].plusDisabled == b.cards[c].plusDisabled)
  {
  }

  // ----- handlers -----

  /** The result of a click: the new builder, and whether the click was
      refused with the "limit reached" message. */
  datatype Step = Step(builder: Builder, refused: bool)

  /** `parseInt(quantityInput.value) || 1`. */
  function InputOrOne(value: int): int {
    ParsedOr(Some(value), 1)
  }

  /** `updateProductQuantityFromCard`: set the entry of the card's title to
      exactly `quantity` and re-render; an absent title is a no-op. */
  function FromCard(b: Builder, c: nat, quantity: int): Builder
    requires c < |b.cards|
  {
    if HasTitle(b.items, b.cards[c].title) then
      RefreshConfig(b.(items := SetQuantityByTitle(b.items, b.cards[c].title, quantity)))
    else b
  }

  /** `removeProductFromCard`. */
  function RemoveFromCard(b: Builder, c: nat): Builder
    requires c < |b.cards|
  {
    if HasTitle(b.items, b.cards[c].title) then
      RefreshConfig(b.(items := RemoveByTitle(b.items, b.cards[c].title)))
    else b
  }

  /** The add button of card `c`: refused when the current total plus the
      input's quantity (at least 1 when the input reads 0) would pass the
      limit; otherwise the product is added with the input's quantity and
      the card shows its quantity selector. */
  function AddClick(b: Builder, c: nat): (s: Step)
    requires c < |b.cards|
    ensures s.refused <==> Total(b.items) + InputOrOne(b.cards[c].value) > b.productLimit
    ensures s.refused ==> s.builder == b
    ensures |s.builder.cards| == |b.cards|
    ensures !s.refused ==>
      && s.builder.items == AddProduct(b.items, b.cards[c], c, b.cards[c].value)
      && s.builder.cards[c].addHidden && !s.builder.cards[c].selectorHidden
  {
    var card := b.cards[c];
    if Total(b.items) + InputOrOne(card.value) > b.productLimit then Step(b, true)
    else
      var b1 := RefreshConfig(b.(items := AddProduct(b.items, card, c, card.value)));
      var b2 := b1.(cards := b1.cards[c := card.(addHidden := true, selectorHidden := false)]);
      ButtonStates(b2);
      Step(UpdateAddButtonStates(b2), false)
  }

  /** The card's input set to `quantity`, its entry (if any) set to
      match, and the buttons re-rendered: what the card's minus and plus
      buttons share. */
  function SetCardQuantity(b: Builder, c: nat, quantity: int): (r: Builder)
    requires c < |b.cards|
    ensures |r.cards| == |b.cards| && r.cards[c].value == quantity
    ensures r.items == if HasTitle(b.items, b.cards[c].title)
                       then SetQuantityByTitle(b.items, b.cards[c].title, quantity) else b.items
  {
    var b1 := FromCard(b.(cards := b.cards[c := b.cards[c].(value := quantity)]), c, quantity);
    ButtonStates(b1);
    UpdateAddButtonStates(b1)
  }

  /** The card's entry removed and the card put back to its add button with
      the input at 1. */
  function ResetCard(b: Builder, c: nat): (r: Builder)
    requires c < |b.cards|
    ensures |r.cards| == |b.cards|
    ensures r.cards[c].value == 1 && !r.cards[c].addHidden && r.cards[c].selectorHidden
    ensures r.items == RemoveByTitle(b.items, b.cards[c].title)
  {
    var b1 := RemoveFromCard(b, c);
    var b2 := b1.(cards := b1.cards[c := b1.cards[c].(addHidden := false, selectorHidden := true, value := 1)]);
    ButtonStates(b2);
    UpdateAddButtonStates(b2)
  }

  /** The minus button of card `c`: above 1 the input and the entry go
      down by one; at 1 (or an input reading 0) the entry is removed and
      the card shows its add button again with the input back at 1. The
      entry's quantity is never set below 1 this way. */
  function MinusClick(b: Builder, c: nat): (r: Builder)
    requires c < |b.cards|
    ensures |r.cards| == |b.cards|
    ensures var v := InputOrOne(b.cards[c].value);
      && (v > 1 ==> r.cards[c].value == v - 1
                    && r.items == (if HasTitle(b.items, b.cards[c].title)
                                   then SetQuantityByTitle(b.items, b.cards[c].title, v - 1) else b.items))
      && (v <= 1 ==> r.cards[c].value == 1 && !r.cards[c].addHidden && r.cards[c].selectorHidden
                     && r.items == RemoveByTitle(b.items, b.cards[c].title))
  {
    var v := InputOrOne(b.cards[c].value);
    if v > 1 then SetCardQuantity(b, c, v - 1) else ResetCard(b, c)
  }

  /** The plus button of card `c`: refused once the total has reached the
      limit; otherwise the input and the entry become the input's value
      plus one. */
  function PlusClick(b: Builder, c: nat): (s: Step)
    requires c < |b.cards|
    ensures s.refused <==> Total(b.items) >= b.productLimit
    ensures s.refused ==> s.builder == b
    ensures |s.builder.cards| == |b.cards|
    ensures !s.refused ==>
      var v := InputOrOne(b.cards[c].value);
      && s.builder.cards[c].value == v + 1
      && s.builder.items == (if HasTitle(b.items, b.cards[c].title)
                             then SetQuantityByTitle(b.items, b.cards[c].title, v + 1) else b.items)
  {
    if Total(b.items) >= b.productLimit then Step(b, true)
    else Step(SetCardQuantity(b, c, InputOrOne(b.cards[c].value) + 1), false)
  }

  /** `removeProductFromBundle(i)`: the entry's card is reset (add button
      shown, selector hidden, input 1), entry `i` is deleted, and the
      buttons are refreshed. */
  function RemoveFromBundle(b: Builder, i: nat): (r: Builder)
    ensures r.items == RemoveAt(b.items, i)
    ensures |r.cards| == |b.cards|
    ensures i < |b.items| && b.items[i].card < |b.cards| ==>
      var k := b.items[i].card;
      r.cards[k].value == 1 && !r.cards[k].addHidden && r.cards[k].selectorHidden
  {
    var b1 := if i < |b.items| && b.items[i].card < |b.cards| then
      var k := b.items[i].card;
      b.(cards := b.cards[k := b.cards[k].(addHidden := false, selectorHidden := true, value := 1)])
    else b;
    ButtonStates(RefreshConfig(b1.(items := RemoveAt(b1.items, i))));
    UpdateAddButtonStates(RefreshConfig(b1.(items := RemoveAt(b1.items, i))))
  }

  /** `updateProductQuantity(i, quantity)`: a quantity of 0 or less removes
      entry `i`; otherwise entry `i` (and its card's input) get exactly that
      quantity and every other entry is unchanged. */
  function UpdateQuantity(b: Builder, i: nat, quantity: int): (r: Builder)
    requires quantity <= 0 || i < |b.items|
    ensures quantity <= 0 ==> r.items == RemoveAt(b.items, i)
    ensures quantity > 0 ==>
      && |r.items| == |b.items|
      && r.items[i] == b.items[i].(quantity := quantity)
      && (forall j :: 0 <= j < |b.items| && j != i ==> r.items[j] == b.items[j])
      && Total(r.items) == Total(b.items) - b.items[i].quantity + quantity
  {
    if quantity <= 0 then RemoveFromBundle(b, i)
    else
      var k := b.items[i].card;
      TotalUpdate(b.items, i, b.items[i].(quantity := quantity));
      var b1 := b.(items := b.items[i := b.items[i].(quantity := quantity)]);
      var b2 := if k < |b1.cards| then b1.(cards := b1.cards[k := b1.cards[k].(value := quantity)]) else b1;
      RefreshConfig(b2)
  }

  /** The summary's minus button on entry `i`. */
  function SummaryMinus(b: Builder, i: nat): (r: Builder)
    requires i < |b.items|
    ensures b.items[i].quantity <= 1 ==> r.items == RemoveAt(b.items, i)
    ensures b.items[i].quantity > 1 ==> r.items == b.items[i := b.items[i].(quantity := b.items[i].quantity - 1)]
  {
    UpdateAddButtonStates(UpdateQuantity(b, i, b.items[i].quantity - 1))
  }

  /** The summary's plus button on entry `i`: refused once the total has
      reached the limit. */
  function SummaryPlus(b: Builder, i: nat): (s: Step)
    requires i < |b.items|
    ensures s.refused <==> Total(b.items) >= b.productLimit
    ensures s.refused ==> s.builder == b
    ensures !s.refused && b.items[i].quantity >= 0 ==>
      s.builder.items == b.items[i := b.items[i].(quantity := b.items[i].quantity + 1)]
  {
    if Total(b.items) >= b.productLimit then Step(b, true)
    else Step(UpdateAddButtonStates(UpdateQuantity(b, i, b.items[i].quantity + 1)), false)
  }

  /** A tab click: the tab becomes active and current, and the limit and
      label are read from it. */
  function SelectTab(b: Builder, k: nat): (r: Builder)
    requires k < |b.tabs|
    ensures r.items == b.items && r.cards == b.cards
    ensures r.productLimit == LimitOf(b.tabs[k]) && r.discountText == DiscountOf(b.tabs[k])
    ensures Synced(r)
  {
    RefreshConfig(b.(activeTab := Some(k), currentTab := k,
                     productLimit := LimitOf(b.tabs[k]), discountText := DiscountOf(b.tabs[k])))
  }

  /** The builder after construction and the first `renderSummary`: no
      products, limit 14 and label "10% off" unless a tab is already marked
      active. */
  function Initial(cards: seq<Card>, tabs: seq<Tab>, activeTab: Option<nat>): (b: Builder)
    ensures b.items == [] && Synced(b) && b.productLimit != 0
    ensures !(activeTab.Some? && activeTab.value < |tabs|) ==>
      b.productLimit == DefaultProductLimit && b.discountText == DefaultDiscountText
  {
    RefreshConfig(Builder([], cards, tabs, activeTab, 0, DefaultProductLimit, DefaultDiscountText))
  }
}

=== FILE: bundle_invariant.dfy ===
/** The invariant the bundle builder's handlers keep, and the limit
    guarantee built on it: starting from a page whose cards have distinct
    product titles and all show their add button with an input of at
    least 1, every click the page can deliver keeps titles unique, keeps
    each card's input equal to its entry's quantity, and, while the tab
    does not change, keeps the total within the product limit. Typing into
    an input is not a click, and both hypotheses are needed: the last
    lemmas show the limit passed when an input is typed over or when one
    product is listed on two cards. */
module BundleInvariant {
  import opened Common
  import opened BundleBuilder

  /** Each product title appears on one card only. */
  predicate DistinctCardTitles(cards: seq<Card>) {
    forall i, j :: 0 <= i < j < |cards| ==> cards[i].title != cards[j].title
  }

  /** Entry `i` has a positive quantity and points at the card with its
      title, whose input shows that quantity. */
  predicate ItemOk(items: seq<LineItem>, cards: seq<Card>, i: int)
    requires 0 <= i < |items|
  {
    var it := items[i];
    it.quantity >= 1 && it.card < |cards|
    && cards[it.card].title == it.title && cards[it.card].value == it.quantity
  }

  /** Card `c`'s input reads at least 1, and its add button is hidden
      exactly when its product is in the bundle. */
  predicate CardOk(items: seq<LineItem>, cards: seq<Card>, c: int)
    requires 0 <= c < |cards|
  {
    cards[c].value >= 1 && (cards[c].addHidden <==> HasTitle(items, cards[c].title))
  }

  predicate ListOk(items: seq<LineItem>, cards: seq<Card>) {
    && UniqueTitles(items)
    && DistinctCardTitles(cards)
    && (forall i :: 0 <= i < |items| ==> ItemOk(items, cards, i))
    && (forall c :: 0 <= c < |cards| ==> CardOk(items, cards, c))
  }

  predicate Inv(b: Builder) {
    b.productLimit != 0 && Synced(b) && ListOk(b.items, b.cards)
  }

  /** The clicks a page can deliver. */
  datatype Event =
    | Add(c: nat) | Minus(c: nat) | Plus(c: nat)
    | SummaryMinusAt(i: nat) | SummaryPlusAt(i: nat) | SummaryRemoveAt(i: nat)
    | TabClick(k: nat)

  /** The control exists and is shown: the add button of a card already in
      the bundle is hidden and cannot be clicked, and the summary only has
      buttons for its own entries. */
  predicate Deliverable(b: Builder, e: Event) {
    match e
    case Add(c) => c < |b.cards| && !b.cards[c].addHidden
    case Minus(c) => c < |b.cards|
    case Plus(c) => c < |b.cards|
    case SummaryMinusAt(i) => i < |b.items|
    case SummaryPlusAt(i) => i < |b.items|
    case SummaryRemoveAt(i) => i < |b.items|
    case TabClick(k) => k < |b.tabs|
  }

  function Apply(b: Builder, e: Event): Step
    requires Deliverable(b, e)
  {
    match e
    case Add(c) => AddClick(b, c)
    case Minus(c) => Step(MinusClick(b, c), false)
    case Plus(c) => PlusClick(b, c)
    case SummaryMinusAt(i) => Step(SummaryMinus(b, i), false)
    case SummaryPlusAt(i) => SummaryPlus(b, i)
    case SummaryRemoveAt(i) => Step(RemoveFromBundle(b, i), false)
    case TabClick(k) => Step(SelectTab(b, k), false)
  }

  /** A sequence of clicks; a click on a control that is not there does
      nothing. */
  function Run(b: Builder, es: seq<Event>): Builder
    decreases |es|
  {
    if |es| == 0 then b
    else Run(if Deliverable(b, es[0]) then Apply(b, es[0]).builder else b, es[1..])
  }

  // ----- frame lemmas -----

  lemma ButtonsKeepInv(b: Builder)
    requires Inv(b)
    ensures Inv(UpdateAddButtonStates(b))
    ensures UpdateAddButtonStates(b).items == b.items
    ensures UpdateAddButtonStates(b).productLimit == b.productLimit
  {
    var r := UpdateAddButtonStates(b);
    ButtonStates(b);
    forall i | 0 <= i < |r.items| ensures ItemOk(r.items, r.cards, i) {
      assert ItemOk(b.items, b.cards, i);
    }
    forall c | 0 <= c < |r.cards| ensures CardOk(r.items, r.cards, c) {
      assert CardOk(b.items, b.cards, c);
    }
  }

  /** The entry of a card's title is the entry that card added. */
  lemma EntryOfCard(items: seq<LineItem>, cards: seq<Card>, c: nat)
    requires ListOk(items, cards) && c < |cards| && HasTitle(items, cards[c].title)
    ensures var i := FindTitle(items, cards[c].title);
      items[i].card == c && items[i].quantity == cards[c].value
  {
    var i := FindTitle(items, cards[c].title);
    assert ItemOk(items, cards, i);
  }

  /** Two different entries were added by two different cards. */
  lemma EntriesOwnCards(items: seq<LineItem>, cards: seq<Card>, i: nat, j: nat)
    requires ListOk(items, cards) && i < |items| && j < |items| && i != j
    ensures items[i].card != items[j].card
  {
    assert ItemOk(items, cards, i) && ItemOk(items, cards, j);
  }

  /** Removing the entry of card `k` and resetting that card keeps the
      list invariant. */
  lemma RemoveEntryKeeps(items: seq<LineItem>, cards: seq<Card>, i: nat)
    requires ListOk(items, cards) && i < |items|
    ensures var k := items[i].card;
      k < |cards| &&
      ListOk(RemoveAt(items, i), cards[k := cards[k].(addHidden := false, selectorHidden := true, value := 1)])
  {
    assert ItemOk(items, cards, i);
    var k := items[i].card;
    var cards' := cards[k := cards[k].(addHidden := false, selectorHidden := true, value := 1)];
    RemovedItemsOk(items, cards, i);
    RemovedCardsOk(items, cards, i);
    assert forall d :: 0 <= d < |cards'| ==> cards'[d].title == cards[d].title;
  }

  lemma RemovedItemsOk(items: seq<LineItem>, cards: seq<Card>, i: nat)
    requires ListOk(items, cards) && i < |items| && items[i].card < |cards|
    ensures var k := items[i].card;
      var items', cards' := RemoveAt(items, i), cards[k := cards[k].(addHidden := false, selectorHidden := true, value := 1)];
      forall j :: 0 <= j < |items'| ==> ItemOk(items', cards', j)
  {
    var k := items[i].card;
    var items' := RemoveAt(items, i);
    var cards' := cards[k := cards[k].(addHidden := false, selectorHidden := true, value := 1)];
    forall j | 0 <= j < |items'| ensures ItemOk(items', cards', j) {
      var src := if j < i then j else j + 1;
      assert items'[j] == items[src];
      assert ItemOk(items, cards, src);
      EntriesOwnCards(items, cards, i, src);
    }
  }

  lemma RemovedCardsOk(items: seq<LineItem>, cards: seq<Card>, i: nat)
    requires ListOk(items, cards) && i < |items| && items[i].card < |cards|
    ensures var k := items[i].card;
      var items', cards' := RemoveAt(items, i), cards[k := cards[k].(addHidden := false, selectorHidden := true, value := 1)];
      forall d :: 0 <= d < |cards'| ==> CardOk(items', cards', d)
  {
    assert ItemOk(items, cards, i);
    var k := items[i].card;
    var items' := RemoveAt(items, i);
    var cards' := cards[k := cards[k].(addHidden := false, selectorHidden := true, value := 1)];
    forall d | 0 <= d < |cards'| ensures CardOk(items', cards', d) {
      assert CardOk(items, cards, d);
      if d != k {
        assert cards[d].title != items[i].title;
        HasOtherTitleAfterRemove(items, i, cards[d].title);
      }
    }
  }

  /** Removing entry `i` keeps every other title's presence. */
  lemma HasOtherTitleAfterRemove(items: seq<LineItem>, i: nat, t: string)
    requires i < |items| && t != items[i].title
    ensures HasTitle(RemoveAt(items, i), t) <==> HasTitle(items, t)
  {
    var items' := RemoveAt(items, i);
    if HasTitle(items', t) {
      var j :| 0 <= j < |items'| && items'[j].title == t;
      var src := if j < i then j else j + 1;
      assert items[src].title == t;
    }
    if HasTitle(items, t) {
      var j :| 0 <= j < |items| && items[j].title == t;
      assert j != i;
      var dst := if j < i then j else j - 1;
      assert items'[dst] == items[j];
    }
  }

  /** Setting entry `i` and its card's input to the same positive quantity
      keeps the list invariant. */
  lemma SetEntryKeeps(items: seq<LineItem>, cards: seq<Card>, i: nat, q: int)
    requires ListOk(items, cards) && i < |items| && q >= 1
    ensures var k := items[i].card;
      k < |cards| &&
      ListOk(items[i := items[i].(quantity := q)], cards[k := cards[k].(value := q)])
  {
    assert ItemOk(items, cards, i);
    var k := items[i].card;
    var items' := items[i := items[i].(quantity := q)];
    var cards' := cards[k := cards[k].(value := q)];
    forall j | 0 <= j < |items'| ensures ItemOk(items', cards', j) {
      assert ItemOk(items, cards, j);
      if j != i { EntriesOwnCards(items, cards, i, j); }
    }
    forall d | 0 <= d < |cards'| ensures CardOk(items', cards', d) {
      assert CardOk(items, cards, d);
      assert HasTitle(items', cards[d].title) == HasTitle(items, cards[d].title) by {
        if HasTitle(items, cards[d].title) {
          var j :| 0 <= j < |items| && items[j].title == cards[d].title;
          assert items'[j].title == cards[d].title;
        }
        if HasTitle(items', cards[d].title) {
          var j :| 0 <= j < |items'| && items'[j].title == cards[d].title;
          assert items[j].title == cards[d].title;
        }
      }
    }
  }

  /** Appending the entry of a card whose product is not yet in the bundle
      and hiding its add button keeps the list invariant. */
  lemma AppendEntryKeeps(items: seq<LineItem>, cards: seq<Card>, c: nat)
    requires ListOk(items, cards) && c < |cards| && !cards[c].addHidden
    ensures var card := cards[c];
      ListOk(AddProduct(items, card, c, card.value),
             cards[c := card.(addHidden := true, selectorHidden := false)])
  {
    var card := cards[c];
    assert CardOk(items, cards, c);
    var items' := AddProduct(items, card, c, card.value);
    var cards' := cards[c := card.(addHidden := true, selectorHidden := false)];
    assert |items'| == |items| + 1;
    forall j | 0 <= j < |items'| ensures ItemOk(items', cards', j) {
      if j < |items| {
        assert items'[j] == items'[..|items|][j] == items[j];
        assert ItemOk(items, cards, j);
      }
    }
    forall d | 0 <= d < |cards'| ensures CardOk(items', cards', d) {
      assert CardOk(items, cards, d);
      assert items'[|items|].title == card.title;
      if d != c {
        assert cards[d].title != card.title;
        assert HasTitle(items', cards[d].title) == HasTitle(items, cards[d].title) by {
          if HasTitle(items, cards[d].title) {
            var j :| 0 <= j < |items| && items[j].title == cards[d].title;
            assert items'[j] == items'[..|items|][j] == items[j];
          }
          if HasTitle(items', cards[d].title) {
            var j :| 0 <= j < |items'| && items'[j].title == cards[d].title;
            assert j < |items|;
            assert items'[j] == items'[..|items|][j] == items[j];
          }
        }
      }
    }
  }

  // ----- one click -----

  lemma AddKeeps(b: Builder, c: nat)
    requires Inv(b) && Deliverable(b, Add(c))
    ensures var s := AddClick(b, c);
      && Inv(s.builder) && s.builder.productLimit == b.productLimit
      && (!s.refused ==> Total(s.builder.items) == Total(b.items) + b.cards[c].value)
      && (Total(b.items) <= b.productLimit ==> Total(s.builder.items) <= b.productLimit)
  {
    var s := AddClick(b, c);
    assert CardOk(b.items, b.cards, c);
    if !s.refused {
      var card := b.cards[c];
      AppendEntryKeeps(b.items, b.cards, c);
      RefreshIsStable(b.(items := AddProduct(b.items, card, c, card.value)));
      var b2 := b.(items := AddProduct(b.items, card, c, card.value),
                   cards := b.cards[c := card.(addHidden := true, selectorHidden := false)]);
      ButtonsKeepInv(b2);
    }
  }

  /** Card `c`'s input and its entry, if any, both set to `q`. */
  lemma CardQuantityKeeps(b: Builder, c: nat, q: int)
    requires Inv(b) && c < |b.cards| && q >= 1
    ensures var r := SetCardQuantity(b, c, q);
      && Inv(r) && r.productLimit == b.productLimit
      && Total(r.items) == Total(b.items) + (if HasTitle(b.items, b.cards[c].title) then q - b.cards[c].value else 0)
  {
    var card := b.cards[c];
    var b1 := b.(cards := b.cards[c := card.(value := q)]);
    if HasTitle(b.items, card.title) {
      var i := FindTitle(b.items, card.title);
      EntryOfCard(b.items, b.cards, c);
      SetEntryKeeps(b.items, b.cards, i, q);
      var b2 := b1.(items := SetQuantityByTitle(b1.items, card.title, q));
      assert b2.items == b.items[i := b.items[i].(quantity := q)];
      RefreshIsStable(b2);
      ButtonsKeepInv(b2);
    } else {
      CardOnlyKeeps(b, c, q);
      ButtonsKeepInv(b1);
    }
  }

  /** Changing the input of a card whose product is not in the bundle. */
  lemma CardOnlyKeeps(b: Builder, c: nat, q: int)
    requires Inv(b) && c < |b.cards| && q >= 1 && !HasTitle(b.items, b.cards[c].title)
    ensures Inv(b.(cards := b.cards[c := b.cards[c].(value := q)]))
  {
    var b1 := b.(cards := b.cards[c := b.cards[c].(value := q)]);
    forall j | 0 <= j < |b1.items| ensures ItemOk(b1.items, b1.cards, j) {
      assert ItemOk(b.items, b.cards, j);
      assert b.items[j].title != b.cards[c].title;
    }
    forall d | 0 <= d < |b1.cards| ensures CardOk(b1.items, b1.cards, d) {
      assert CardOk(b.items, b.cards, d);
    }
  }

  /** Card `c`'s entry, if any, removed and the card reset. */
  lemma CardRemoveKeeps(b: Builder, c: nat)
    requires Inv(b) && c < |b.cards| && InputOrOne(b.cards[c].value) <= 1
    ensures var r := ResetCard(b, c);
      Inv(r) && r.productLimit == b.productLimit && Total(r.items) <= Total(b.items)
  {
    var card := b.cards[c];
    assert CardOk(b.items, b.cards, c);
    var reset := card.(addHidden := false, selectorHidden := true, value := 1);
    if HasTitle(b.items, card.title) {
      var i := FindTitle(b.items, card.title);
      EntryOfCard(b.items, b.cards, c);
      RemoveEntryKeeps(b.items, b.cards, i);
      var b1 := b.(items := RemoveByTitle(b.items, card.title));
      RefreshIsStable(b1);
      ButtonsKeepInv(b1.(cards := b.cards[c := reset]));
    } else {
      assert card.value == 1 && !card.addHidden;
      assert b.cards[c := reset] == b.cards[c := card.(selectorHidden := true)];
      var b1 := b.(cards := b.cards[c := reset]);
      forall j | 0 <= j < |b1.items| ensures ItemOk(b1.items, b1.cards, j) {
        assert ItemOk(b.items, b.cards, j);
      }
      forall d | 0 <= d < |b1.cards| ensures CardOk(b1.items, b1.cards, d) {
        assert CardOk(b.items, b.cards, d);
      }
      ButtonsKeepInv(b1);
    }
  }

  lemma MinusKeeps(b: Builder, c: nat)
    requires Inv(b) && Deliverable(b, Minus(c))
    ensures var r := MinusClick(b, c);
      Inv(r) && r.productLimit == b.productLimit && Total(r.items) <= Total(b.items)
  {
    if InputOrOne(b.cards[c].value) > 1 {
      MinusLowerKeeps(b, c);
    } else {
      MinusRemoveKeeps(b, c);
    }
  }

  lemma MinusLowerKeeps(b: Builder, c: nat)
    requires Inv(b) && c < |b.cards| && InputOrOne(b.cards[c].value) > 1
    ensures var r := MinusClick(b, c);
      Inv(r) && r.productLimit == b.productLimit && Total(r.items) <= Total(b.items)
  {
    InputIsQuantity(b, c);
    MinusLowers(b, c);
    CardQuantityKeeps(b, c, InputOrOne(b.cards[c].value) - 1);
  }

  /** Under the invariant a card's input is read as its own value. */
  lemma InputIsQuantity(b: Builder, c: nat)
    requires Inv(b) && c < |b.cards|
    ensures InputOrOne(b.cards[c].value) == b.cards[c].value >= 1
  {
    assert CardOk(b.items, b.cards, c);
  }

  lemma MinusLowers(b: Builder, c: nat)
    requires c < |b.cards| && InputOrOne(b.cards[c].value) > 1
    ensures MinusClick(b, c) == SetCardQuantity(b, c, InputOrOne(b.cards[c].value) - 1)
  {
  }

  lemma PlusRaises(b: Builder, c: nat)
    requires c < |b.cards| && Total(b.items) < b.productLimit
    ensures PlusClick(b, c).builder == SetCardQuantity(b, c, InputOrOne(b.cards[c].value) + 1)
  {
  }

  lemma MinusRemoveKeeps(b: Builder, c: nat)
    requires Inv(b) && c < |b.cards| && InputOrOne(b.cards[c].value) <= 1
    ensures var r := MinusClick(b, c);
      Inv(r) && r.productLimit == b.productLimit && Total(r.items) <= Total(b.items)
  {
    CardRemoveKeeps(b, c);
  }

  lemma PlusKeeps(b: Builder, c: nat)
    requires Inv(b) && Deliverable(b, Plus(c))
    ensures var s := PlusClick(b, c);
      && Inv(s.builder) && s.builder.productLimit == b.productLimit
      && Total(s.builder.items) <= Total(b.items) + 1
      && (Total(b.items) <= b.productLimit ==> Total(s.builder.items) <= b.productLimit)
  {
    if Total(b.items) < b.productLimit {
      PlusRaiseKeeps(b, c);
    }
  }

  lemma PlusRaiseKeeps(b: Builder, c: nat)
    requires Inv(b) && c < |b.cards| && Total(b.items) < b.productLimit
    ensures var s := PlusClick(b, c);
      && Inv(s.builder) && s.builder.productLimit == b.productLimit
      && Total(s.builder.items) <= Total(b.items) + 1
  {
    InputIsQuantity(b, c);
    PlusRaises(b, c);
    CardQuantityKeeps(b, c, InputOrOne(b.cards[c].value) + 1);
  }

  lemma RemoveKeeps(b: Builder, i: nat)
    requires Inv(b) && i < |b.items|
    ensures var r := RemoveFromBundle(b, i);
      Inv(r) && r.productLimit == b.productLimit && Total(r.items) < Total(b.items)
  {
    assert ItemOk(b.items, b.cards, i);
    var k := b.items[i].card;
    RemoveEntryKeeps(b.items, b.cards, i);
    var b1 := b.(cards := b.cards[k := b.cards[k].(addHidden := false, selectorHidden := true, value := 1)]);
    var b2 := b1.(items := RemoveAt(b1.items, i));
    RefreshIsStable(b2);
    ButtonsKeepInv(b2);
  }

  lemma UpdateKeeps(b: Builder, i: nat, q: int)
    requires Inv(b) && i < |b.items| && q >= 1
    ensures var r := UpdateQuantity(b, i, q);
      Inv(r) && r.productLimit == b.productLimit
  {
    SetEntryKeeps(b.items, b.cards, i, q);
    var k := b.items[i].card;
    var b2 := b.(items := b.items[i := b.items[i].(quantity := q)], cards := b.cards[k := b.cards[k].(value := q)]);
    RefreshIsStable(b2);
  }

  lemma SummaryMinusKeeps(b: Builder, i: nat)
    requires Inv(b) && i < |b.items|
    ensures var r := SummaryMinus(b, i);
      Inv(r) && r.productLimit == b.productLimit && Total(r.items) < Total(b.items)
  {
    if b.items[i].quantity <= 1 {
      LastUnitKeeps(b, i);
    } else {
      LowerKeeps(b, i);
    }
  }

  /** The summary's minus on an entry of quantity 1 removes it. */
  lemma LastUnitKeeps(b: Builder, i: nat)
    requires Inv(b) && i < |b.items| && b.items[i].quantity <= 1
    ensures var r := SummaryMinus(b, i);
      Inv(r) && r.productLimit == b.productLimit && Total(r.items) < Total(b.items)
  {
    RemoveKeeps(b, i);
    ButtonsKeepInv(RemoveFromBundle(b, i));
  }

  /** The summary's minus on an entry of a larger quantity lowers it by 1. */
  lemma LowerKeeps(b: Builder, i: nat)
    requires Inv(b) && i < |b.items| && b.items[i].quantity > 1
    ensures var r := SummaryMinus(b, i);
      Inv(r) && r.productLimit == b.productLimit && Total(r.items) < Total(b.items)
  {
    var q := b.items[i].quantity - 1;
    UpdateKeeps(b, i, q);
    ButtonsKeepInv(UpdateQuantity(b, i, q));
  }

  lemma SummaryPlusKeeps(b: Builder, i: nat)
    requires Inv(b) && i < |b.items|
    ensures var s := SummaryPlus(b, i);
      && Inv(s.builder) && s.builder.productLimit == b.productLimit
      && (Total(b.items) <= b.productLimit ==> Total(s.builder.items) <= b.productLimit)
  {
    if Total(b.items) < b.productLimit {
      RaiseKeeps(b, i);
    }
  }

  /** The summary's plus, once accepted, raises the entry by 1. */
  lemma RaiseKeeps(b: Builder, i: nat)
    requires Inv(b) && i < |b.items| && Total(b.items) < b.productLimit
    ensures var s := SummaryPlus(b, i);
      && Inv(s.builder) && s.builder.productLimit == b.productLimit
      && Total(s.builder.items) == Total(b.items) + 1
  {
    assert ItemOk(b.items, b.cards, i);
    var q := b.items[i].quantity + 1;
    var r := UpdateQuantity(b, i, q);
    assert SummaryPlus(b, i) == Step(UpdateAddButtonStates(r), false);
    UpdateKeeps(b, i, q);
    ButtonsKeepInv(r);
  }

  /** Every deliverable click keeps the invariant. */
  lemma ApplyKeepsInv(b: Builder, e: Event)
    requires Inv(b) && Deliverable(b, e)
    ensures Inv(Apply(b, e).builder)
  {
    match e
    case Add(c) => AddKeeps(b, c);
    case Minus(c) => MinusKeeps(b, c);
    case Plus(c) => PlusKeeps(b, c);
    case SummaryMinusAt(i) => SummaryMinusKeeps(b, i);
    case SummaryPlusAt(i) => SummaryPlusKeeps(b, i);
    case SummaryRemoveAt(i) => RemoveKeeps(b, i);
    case TabClick(k) =>
  }

  /** Apart from a tab click, every deliverable click leaves the limit as it
      was and never takes the total past it. */
  lemma ApplyWithinLimit(b: Builder, e: Event)
    requires Inv(b) && Deliverable(b, e) && !e.TabClick?
    requires Total(b.items) <= b.productLimit
    ensures Apply(b, e).builder.productLimit == b.productLimit
    ensures Total(Apply(b, e).builder.items) <= b.productLimit
  {
    match e
    case Add(c) => AddKeeps(b, c);
    case Minus(c) => MinusKeeps(b, c);
    case Plus(c) => PlusKeeps(b, c);
    case SummaryMinusAt(i) => SummaryMinusKeeps(b, i);
    case SummaryPlusAt(i) => SummaryPlusKeeps(b, i);
    case SummaryRemoveAt(i) => RemoveKeeps(b, i);
  }

  /** For a fixed tab, no sequence of clicks takes the bundle past its
      product limit, and titles stay unique throughout. */
  lemma {:induction false} RunWithinLimit(b: Builder, es: seq<Event>)
    requires Inv(b) && Total(b.items) <= b.productLimit
    requires forall n :: 0 <= n < |es| ==> !es[n].TabClick?
    ensures Inv(Run(b, es))
    ensures Run(b, es).productLimit == b.productLimit
    ensures Total(Run(b, es).items) <= b.productLimit
    ensures UniqueTitles(Run(b, es).items)
    decreases |es|
  {
    if |es| > 0 {
      var b' := if Deliverable(b, es[0]) then Apply(b, es[0]).builder else b;
      if Deliverable(b, es[0]) {
        ApplyKeepsInv(b, es[0]);
        ApplyWithinLimit(b, es[0]);
      }
      RunWithinLimit(b', es[1..]);
    }
  }

  /** Any sequence of clicks, tab clicks included, keeps the invariant. */
  lemma {:induction false} RunKeepsInv(b: Builder, es: seq<Event>)
    requires Inv(b)
    ensures Inv(Run(b, es))
    decreases |es|
  {
    if |es| > 0 {
      var b' := if Deliverable(b, es[0]) then Apply(b, es[0]).builder else b;
      if Deliverable(b, es[0]) {
        ApplyKeepsInv(b, es[0]);
      }
      RunKeepsInv(b', es[1..]);
    }
  }

  /** The freshly built page satisfies the invariant when each product
      appears on one card and every card shows its add button with an input
      of at least 1. */
  lemma InitialInv(cards: seq<Card>, tabs: seq<Tab>, activeTab: Option<nat>)
    requires DistinctCardTitles(cards)
    requires forall c :: 0 <= c < |cards| ==> cards[c].value >= 1 && !cards[c].addHidden
    ensures Inv(Initial(cards, tabs, activeTab))
    ensures Total(Initial(cards, tabs, activeTab).items) == 0
  {
    var b := Initial(cards, tabs, activeTab);
    forall c | 0 <= c < |cards| ensures CardOk(b.items, b.cards, c) {
    }
  }

  // ----- what the guard relies on -----

  /** The plus button trusts the card's input: when the input has been
      typed over so that it no longer matches the entry, one accepted plus
      click can take the total far past the limit. */
  lemma PlusTrustsCardInput()
    ensures var card := Card("Tea", "", "", "", true, false, 20, false, false);
      var b := Builder([LineItem("Tea", "", "", "", 1, 0)], [card], [], None, 0, 14, "10% off");
      var s := PlusClick(b, 0);
      !s.refused && Total(b.items) <= b.productLimit && Total(s.builder.items) == 21
  {
    var card := Card("Tea", "", "", "", true, false, 20, false, false);
    var b := Builder([LineItem("Tea", "", "", "", 1, 0)], [card], [], None, 0, 14, "10% off");
    assert b.items[0].title == "Tea";
    assert FindTitle(b.items, "Tea") == 0;
    assert Total(b.items) == 1 by {
      assert b.items[..0] == [];
    }
    assert InputOrOne(20) == 20;
    var items' := SetQuantityByTitle(b.items, "Tea", 21);
    assert items' == [LineItem("Tea", "", "", "", 21, 0)];
    assert PlusClick(b, 0).builder.items == items';
    assert Total(items') == 21 by {
      assert items'[..0] == [];
    }
  }

  /** The control is on screen and enabled: an add button that is neither
      hidden nor disabled, a minus button in a shown quantity selector, or
      a plus button in a shown selector that is not disabled. */
  predicate Clickable(b: Builder, e: Event) {
    && Deliverable(b, e)
    && match e
       case Add(c) => !b.cards[c].addHidden && !b.cards[c].addDisabled
       case Minus(c) => !b.cards[c].selectorHidden
       case Plus(c) => !b.cards[c].selectorHidden && !b.cards[c].plusDisabled
       case _ => true
  }

  /** Running one more click after a sequence. */
  lemma {:induction false} RunSnoc(b: Builder, es: seq<Event>, e: Event)
    ensures Run(b, es + [e]) == var r := Run(b, es);
      if Deliverable(r, e) then Apply(r, e).builder else r
    decreases |es|
  {
    if |es| == 0 {
      assert es + [e] == [e];
    } else {
      var b' := if Deliverable(b, es[0]) then Apply(b, es[0]).builder else b;
      assert (es + [e])[1..] == es[1..] + [e];
      RunSnoc(b', es[1..], e);
    }
  }

  // The page of the counterexample below: one product on two cards, and a
  // tab limit of 2.
  function Tea(addHidden: bool, selectorHidden: bool, value: int, plusDisabled: bool): Card {
    Card("Tea", "", "", "", addHidden, selectorHidden, value, false, plusDisabled)
  }

  function TeaEntry(quantity: int, card: nat): LineItem {
    LineItem("Tea", "", "", "", quantity, card)
  }

  function TeaPage(items: seq<LineItem>, c0: Card, c1: Card): Builder {
    Builder(items, [c0, c1], [Tab(Some(2), "")], Some(0), 0, 2, DefaultDiscountText)
  }

  lemma TeaStart()
    ensures Initial([Tea(false, true, 1, false), Tea(false, true, 1, false)], [Tab(Some(2), "")], Some(0))
      == TeaPage([], Tea(false, true, 1, false), Tea(false, true, 1, false))
  {
  }

  /** The button refresh on the two cards. */
  lemma TeaButtons(items: seq<LineItem>, c0: Card, c1: Card)
    ensures var reached := Total(items) >= 2;
      UpdateAddButtonStates(TeaPage(items, c0, c1))
      == TeaPage(items,
                 c0.(addDisabled := if c0.addHidden then c0.addDisabled else reached,
                     plusDisabled := if c0.selectorHidden then c0.plusDisabled else reached),
                 c1.(addDisabled := if c1.addHidden then c1.addDisabled else reached,
                     plusDisabled := if c1.selectorHidden then c1.plusDisabled else reached))
  {
  }

  lemma TeaStep1()
    ensures Apply(TeaPage([], Tea(false, true, 1, false), Tea(false, true, 1, false)), Add(0)).builder
      == TeaPage([TeaEntry(1, 0)], Tea(true, false, 1, false), Tea(false, true, 1, false))
  {
    var b := TeaPage([], Tea(false, true, 1, false), Tea(false, true, 1, false));
    assert !HasTitle([], "Tea");
    var items := AddProduct([], b.cards[0], 0, 1);
    assert items == [TeaEntry(1, 0)];
    assert Total(items) == 1 by { assert items[..0] == []; }
    TeaButtons(items, Tea(true, false, 1, false), Tea(false, true, 1, false));
  }

  lemma TeaStep2()
    ensures Apply(TeaPage([TeaEntry(1, 0)], Tea(true, false, 1, false), Tea(false, true, 1, false)), Add(1)).builder
      == TeaPage([TeaEntry(2, 0)], Tea(true, false, 1, true), Tea(true, false, 1, true))
  {
    assert Total([TeaEntry(1, 0)]) == 1 by { assert [TeaEntry(1, 0)][..0] == []; }
    assert Total([TeaEntry(2, 0)]) == 2 by { assert [TeaEntry(2, 0)][..0] == []; }
    assert FindTitle([TeaEntry(1, 0)], "Tea") == 0;
  }

  lemma TeaStep3()
    ensures Apply(TeaPage([TeaEntry(2, 0)], Tea(true, false, 1, true), Tea(true, false, 1, true)), Minus(1)).builder
      == TeaPage([], Tea(true, false, 1, false), Tea(false, true, 1, true))
  {
    assert FindTitle([TeaEntry(2, 0)], "Tea") == 0;
    assert RemoveAt([TeaEntry(2, 0)], 0) == [];
  }

  lemma TeaStep4()
    ensures Apply(TeaPage([], Tea(true, false, 1, false), Tea(false, true, 1, true)), Plus(0)).builder
      == TeaPage([], Tea(true, false, 2, false), Tea(false, true, 1, true))
  {
  }

  lemma TeaStep5()
    ensures Apply(TeaPage([], Tea(true, false, 2, false), Tea(false, true, 1, true)), Add(1)).builder
      == TeaPage([TeaEntry(1, 1)], Tea(true, false, 2, false), Tea(true, false, 1, false))
  {
    var b := TeaPage([], Tea(true, false, 2, false), Tea(false, true, 1, true));
    assert !HasTitle([], "Tea");
    var items := AddProduct([], b.cards[1], 1, 1);
    assert items == [TeaEntry(1, 1)];
    assert Total(items) == 1 by { assert items[..0] == []; }
    TeaButtons(items, Tea(true, false, 2, false), Tea(true, false, 1, true));
  }

  lemma TeaStep6()
    ensures Apply(TeaPage([TeaEntry(1, 1)], Tea(true, false, 2, false), Tea(true, false, 1, false)), Plus(0)).builder
      == TeaPage([TeaEntry(3, 1)], Tea(true, false, 3, true), Tea(true, false, 1, true))
  {
    assert Total([TeaEntry(1, 1)]) == 1 by { assert [TeaEntry(1, 1)][..0] == []; }
    assert Total([TeaEntry(3, 1)]) == 3 by { assert [TeaEntry(3, 1)][..0] == []; }
    assert FindTitle([TeaEntry(1, 1)], "Tea") == 0;
  }

  /** Entries are keyed by title but cards are not: on a fresh page listing
      one product on two cards, both inputs at 1 and a tab limit of 2, six
      clicks on shown, enabled controls take the total to 3. The second
      card's minus removes the shared entry while the first card keeps its
      selector; the first card's plus then raises only its own input, and
      once the second card adds the product again, that plus writes the
      raised input into the entry. */
  lemma DuplicateCardsPassLimit(b: Builder, es: seq<Event>)
    requires b == Initial([Tea(false, true, 1, false), Tea(false, true, 1, false)], [Tab(Some(2), "")], Some(0))
    requires es == [Add(0), Add(1), Minus(1), Plus(0), Add(1), Plus(0)]
    ensures b.productLimit == 2 && Total(b.items) == 0
    ensures forall n :: 0 <= n < |es| ==> Clickable(Run(b, es[..n]), es[n])
    ensures Total(Run(b, es).items) == 3
  {
    TeaStart();
    var states := TeaStates();
    TeaChain(es, states);
    RunSteps(b, es, states);
    assert es[..6] == es;
    assert Total(states[6].items) == 3 by { assert states[6].items[..0] == []; }
  }

  /** The seven states of the run, the first one the fresh page. */
  function TeaStates(): (states: seq<Builder>)
    ensures |states| == 7
  {
    [TeaPage([], Tea(false, true, 1, false), Tea(false, true, 1, false)),
     TeaPage([TeaEntry(1, 0)], Tea(true, false, 1, false), Tea(false, true, 1, false)),
     TeaPage([TeaEntry(2, 0)], Tea(true, false, 1, true), Tea(true, false, 1, true)),
     TeaPage([], Tea(true, false, 1, false), Tea(false, true, 1, true)),
     TeaPage([], Tea(true, false, 2, false), Tea(false, true, 1, true)),
     TeaPage([TeaEntry(1, 1)], Tea(true, false, 2, false), Tea(true, false, 1, false)),
     TeaPage([TeaEntry(3, 1)], Tea(true, false, 3, true), Tea(true, false, 1, true))]
  }

  lemma TeaChain(es: seq<Event>, states: seq<Builder>)
    requires es == [Add(0), Add(1), Minus(1), Plus(0), Add(1), Plus(0)]
    requires states == TeaStates()
    ensures forall n :: 0 <= n < |es| ==>
      Clickable(states[n], es[n]) && Apply(states[n], es[n]).builder == states[n + 1]
  {
    forall n | 0 <= n < |es|
      ensures Clickable(states[n], es[n]) && Apply(states[n], es[n]).builder == states[n + 1]
    {
      TeaAt(es, states, n);
    }
  }

  lemma TeaAt(es: seq<Event>, states: seq<Builder>, n: nat)
    requires es == [Add(0), Add(1), Minus(1), Plus(0), Add(1), Plus(0)]
    requires states == TeaStates() && n < 6
    ensures Clickable(states[n], es[n]) && Apply(states[n], es[n]).builder == states[n + 1]
  {
    if n == 0 { TeaStep1(); }
    else if n == 1 { TeaStep2(); }
    else if n == 2 { TeaStep3(); }
    else if n == 3 { TeaStep4(); }
    else if n == 4 { TeaStep5(); }
    else { TeaStep6(); }
  }

  /** A run through given states: when each click is clickable in its
      state and leads to the next, every prefix of the run ends in the
      matching state. */
  lemma {:induction false} RunSteps(b: Builder, es: seq<Event>, states: seq<Builder>)
    requires |states| == |es| + 1 && states[0] == b
    requires forall n :: 0 <= n < |es| ==>
      Clickable(states[n], es[n]) && Apply(states[n], es[n]).builder == states[n + 1]
    ensures forall n :: 0 <= n <= |es| ==> Run(b, es[..n]) == states[n]
  {
    forall n | 0 <= n <= |es| ensures Run(b, es[..n]) == states[n] {
      RunPrefix(b, es, states, n);
    }
  }

  lemma {:induction false} RunPrefix(b: Builder, es: seq<Event>, states: seq<Builder>, n: nat)
    requires |states| == |es| + 1 && states[0] == b && n <= |es|
    requires forall n :: 0 <= n < |es| ==>
      Clickable(states[n], es[n]) && Apply(states[n], es[n]).builder == states[n + 1]
    ensures Run(b, es[..n]) == states[n]
    decreases n
  {
    if n > 0 {
      RunPrefix(b, es, states, n - 1);
      assert es[..n] == es[..n - 1] + [es[n - 1]];
      RunSnoc(b, es[..n - 1], es[n - 1]);
    }
  }

  /** The add button charges an input of 0 as 1 against the limit but adds
      it as 0, so a zero-quantity entry appears in the bundle. */
  lemma AddChargesZeroAsOne()
    ensures var card := Card("Tea", "", "", "", false, true, 0, false, false);
      var b := Builder([], [card], [], None, 0, 14, "10% off");
      var s := AddClick(b, 0);
      !s.refused && s.builder.items == [LineItem("Tea", "", "", "", 0, 0)]
  {
    var card := Card("Tea", "", "", "", false, true, 0, false, false);
    var b := Builder([], [card], [], None, 0, 14, "10% off");
    assert !HasTitle(b.items, "Tea");
  }
}

=== FILE: catalog.dfy ===
/** The bundle catalog embedded in the page as JSON, the lookup of a
    chosen bundle in it, and the description payloads the description
    block can be given. Both the product-info component and the standalone
    gift-card script read these the same way. */
module Catalog {
  import opened Common

  /** One bundle variant of the embedded catalog. `id` is the catalog id
      as text (`String(v.id)`), `price` is in integer cents, and `title` is
      the empty string when the catalog gives none. */
  datatype Variant = Variant(id: string, price: int, available: bool, title: string)

  /** The `<script data-bundle-variants>` element: missing, holding text
      that `JSON.parse` rejects, or holding a parsed list. */
  datatype Script = Missing | Malformed | Parsed(variants: seq<Variant>)

  /** `getBundleVariantsData`: the parsed list, or the empty list when the
      script is missing or malformed (the parse error is only logged). */
  function VariantsData(script: Script): (r: seq<Variant>)
    ensures script.Parsed? ==> r == script.variants
    ensures !script.Parsed? ==> r == []
  {
    match script
    case Parsed(vs) => vs
    case _ => []
  }

  /** `bundleVariantsData.find(v => String(v.id) === String(variantId))`. */
  function Find(catalog: seq<Variant>, id: string): (r: Option<Variant>)
    ensures r.None? <==> forall i :: 0 <= i < |catalog| ==> catalog[i].id != id
    ensures r.Some? ==> exists i :: 0 <= i < |catalog| && catalog[i] == r.value
                                    && forall j :: 0 <= j < i ==> catalog[j].id != id
    ensures r.Some? ==> r.value.id == id
  {
    if |catalog| == 0 then None
    else if catalog[0].id == id then Some(catalog[0])
    else
      var r := Find(catalog[1..], id);
      if r.Some? then
        ghost var i :| 0 <= i < |catalog[1..]| && catalog[1..][i] == r.value
                       && forall j :: 0 <= j < i ==> catalog[1..][j].id != id;
        assert catalog[i + 1] == r.value;
        assert forall j :: 0 <= j < i + 1 ==> catalog[j].id != id by {
          forall j | 0 <= j < i + 1 ensures catalog[j].id != id {
            if j > 0 { assert catalog[j] == catalog[1..][j - 1]; }
          }
        }
        r
      else
        assert forall i :: 0 <= i < |catalog| ==> catalog[i].id != id by {
          forall i | 0 <= i < |catalog| ensures catalog[i].id != id {
            if i > 0 { assert catalog[i] == catalog[1..][i - 1]; }
          }
        }
        r
  }

  /** A catalog that could not be read turns every bundle choice into a
      lookup miss. */
  lemma UnreadableCatalogMisses(script: Script, id: string)
    requires !script.Parsed?
    ensures Find(VariantsData(script), id) == None
  {
  }

  /** What a description update is handed: a string, an object (its
      `value` and `html` members, `""` when absent or falsy, and the text
      `JSON.stringify` gives for it), or null/undefined. */
  datatype Payload = Text(text: string) | Object(value: string, html: string, json: string) | Null

  /** The HTML a description update extracts from its argument: a string
      as it is; for an object its `value`, else its `html`, else its JSON
      text; nothing for null. */
  function ResolveHtml(p: Payload): (html: string)
    ensures p.Text? ==> html == p.text
    ensures p.Object? && p.value != "" ==> html == p.value
    ensures p.Object? && p.value == "" && p.html != "" ==> html == p.html
    ensures p.Object? && p.value == "" && p.html == "" ==> html == p.json
    ensures p.Null? ==> html == ""
  {
    match p
    case Text(s) => s
    case Object(v, h, j) => OrElse(v, OrElse(h, j))
    case Null => ""
  }

  /** JavaScript truthiness of a payload: a non-empty string or any
      object. */
  predicate Truthy(p: Payload) {
    (p.Text? && p.text != "") || p.Object?
  }

  /** What `element.innerHTML = p` stores when `p` is used directly. */
  function AsInnerHtml(p: Payload): string {
    match p
    case Text(s) => s
    case Object(_, _, _) => "[object Object]"
    case Null => ""
  }
}

=== FILE: common.dfy ===
/** Small shared vocabulary: an optional value and the JavaScript
    truthiness fallbacks (`a || b`) the storefront scripts lean on. */
module Common {

  datatype Option<+T> = None | Some(value: T) {
    function GetOr(default: T): T {
      match this
      case Some(v) => v
      case None => default
    }
  }

  /** `a || b` on strings: the empty string is the only falsy string. */
  function OrElse(a: string, b: string): string {
    if a != "" then a else b
  }

  /** `parseInt(attr) || d`, where `parsed` is None when the attribute is
      missing or does not parse (NaN); a parsed 0 is falsy too. */
  function ParsedOr(parsed: Option<int>, d: int): int {
    if parsed.Some? && parsed.value != 0 then parsed.value else d
  }

  /** `xs.join(sep)`. */
  function Join(xs: seq<string>, sep: string): string
    decreases |xs|
  {
    if |xs| == 0 then ""
    else if |xs| == 1 then xs[0]
    else xs[0] + sep + Join(xs[1..], sep)
  }

  function Max(a: int, b: int): int { if a >= b then a else b }

  function Min(a: int, b: int): int { if a <= b then a else b }

  /** No two positions of `s` hold the same element. */
  predicate Distinct<T(==)>(s: seq<T>) {
    forall i, j :: 0 <= i < j < |s| ==> s[i] != s[j]
  }
}

=== FILE: gift_card_bundle.dfy ===
/** The standalone bundle script: the same exclusion between the bundle
    widget and the native variant picker as the product-info component,
    but a bundle choice is applied to the page directly (form id, `variant`
    query parameter, price, submit button, description) instead of being
    fetched. */
module GiftCardBundle {
  import opened Common
  import opened Money
  import opened UrlParams
  import opened Catalog
  import opened Picker
  import ProductInfo

  /** A product form of the page: its section and its `id` input's value
      (`None` when the form has no such input). */
  datatype Form = Form(section: string, idInput: Option<string>)

  /** The section's submit button: disabled or not, and the text of its
      `<span>` (`None` when it has none). */
  datatype Submit = Submit(disabled: bool, caption: Option<string>)

  /** `window.variantStrings.addToCart` / `.soldOut`, `""` when absent. */
  datatype Strings = Strings(addToCart: string, soldOut: string)

  /** The page as the script sees it. `section` is the bundle widget's
      `data-section`; `variantListeners` is whether the native picker's
      listeners were installed; `price` is the regular price text (`None`
      when the section has no price element); `submit` is `None` when the
      section has no product form or button; `description` is `None` when
      the page has no description block; `defaultDescription` starts as
      the empty string and is replaced by the parsed default description
      script. */
  datatype Page = Page(
    bundles: BundleWidget, picker: Option<VariantPicker>, variantListeners: bool,
    section: string, forms: seq<Form>, params: seq<Param>,
    price: Option<string>, submit: Option<Submit>,
    description: Option<string>, defaultDescription: Payload,
    catalog: seq<Variant>, strings: Strings)

  const AddToCartFallback := "Add to cart"
  const SoldOutFallback := "Sold out"

  // ----- the steps of a bundle choice -----

  /** `updateProductFormVariant(section, id)`: every form of the section
      that has an `id` input gets the id. */
  function SetFormVariant(forms: seq<Form>, section: string, id: string): (r: seq<Form>)
    ensures |r| == |forms|
    ensures forall i :: 0 <= i < |r| ==>
      && r[i].section == forms[i].section
      && (r[i].idInput.Some? <==> forms[i].idInput.Some?)
      && (forms[i].section == section && forms[i].idInput.Some? ==> r[i].idInput == Some(id))
      && (forms[i].section != section ==> r[i] == forms[i])
  {
    seq(|forms|, i requires 0 <= i < |forms| =>
      if forms[i].section == section && forms[i].idInput.Some? then forms[i].(idInput := Some(id)) else forms[i])
  }

  /** Writing the variant twice leaves the second one. */
  lemma LastFormVariantWins(forms: seq<Form>, section: string, id1: string, id2: string)
    ensures SetFormVariant(SetFormVariant(forms, section, id1), section, id2) == SetFormVariant(forms, section, id2)
  {
    var a := SetFormVariant(SetFormVariant(forms, section, id1), section, id2);
    var b := SetFormVariant(forms, section, id2);
    assert forall i :: 0 <= i < |a| ==> a[i] == b[i];
  }

  /** A standalone form seen as a component form: its section and id, with
      no Gift Type (the standalone script never writes one). */
  function AsComponentForm(f: Form): ProductInfo.ProductForm
    requires f.idInput.Some?
  {
    ProductInfo.ProductForm(f.section, f.idInput.value, None)
  }

  /** On forms that all have an `id` input, the standalone script's
      `updateProductFormVariant` writes the same ids as the component's
      `updateVariantInputs`; they differ only on a form without the input,
      which the standalone script skips and the component would fail on. */
  lemma FormWritesAgree(forms: seq<Form>, section: string, id: string)
    requires forall i :: 0 <= i < |forms| ==> forms[i].idInput.Some?
    ensures var r := SetFormVariant(forms, section, id);
      && (forall i :: 0 <= i < |r| ==> r[i].idInput.Some?)
      && seq(|r|, i requires 0 <= i < |r| => AsComponentForm(r[i]))
         == ProductInfo.SetFormIds(seq(|forms|, i requires 0 <= i < |forms| => AsComponentForm(forms[i])), section, id)
  {
    var r := SetFormVariant(forms, section, id);
    var a := seq(|r|, i requires 0 <= i < |r| => AsComponentForm(r[i]));
    var b := ProductInfo.SetFormIds(seq(|forms|, i requires 0 <= i < |forms| => AsComponentForm(forms[i])), section, id);
    assert forall i :: 0 <= i < |a| ==> a[i] == b[i];
  }

  /** `updatePriceDisplay`: a price of 0 leaves the text alone; any other
      price is shown with the fallback formatter. */
  function UpdatePrice(price: Option<string>, cents: int): (r: Option<string>)
    ensures r.Some? <==> price.Some?
    ensures cents == 0 ==> r == price
    ensures price.Some? && cents != 0 ==> ParseMoney(r.value) == Some(cents)
  {
    if price.Some? && cents != 0 then
      FormatMoneyRoundTrip(cents);
      Some(FormatMoney(cents))
    else price
  }

  /** `updateAddToCartButton`: the button is enabled exactly when the
      variant is available, and its text says so, in the theme's words or
      the fallback ones. */
  function UpdateSubmit(submit: Option<Submit>, available: bool, strings: Strings): (r: Option<Submit>)
    ensures r.Some? <==> submit.Some?
    ensures r.Some? ==> (r.value.disabled <==> !available)
    ensures r.Some? ==> (r.value.caption.Some? <==> submit.value.caption.Some?)
    ensures r.Some? && r.value.caption.Some? && available ==>
      r.value.caption.value == if strings.addToCart != "" then strings.addToCart else AddToCartFallback
    ensures r.Some? && r.value.caption.Some? && !available ==>
      r.value.caption.value == if strings.soldOut != "" then strings.soldOut else SoldOutFallback
  {
    if submit.None? then None
    else
      var text := if available then OrElse(strings.addToCart, AddToCartFallback) else OrElse(strings.soldOut, SoldOutFallback);
      Some(Submit(!available, if submit.value.caption.Some? then Some(text) else None))
  }

  /** The button shows the last variant chosen: updating it again with
      another availability overrides the first update completely. */
  lemma LastSubmitWins(submit: Option<Submit>, available1: bool, available2: bool, strings: Strings)
    ensures UpdateSubmit(UpdateSubmit(submit, available1, strings), available2, strings)
         == UpdateSubmit(submit, available2, strings)
  {
  }

  /** The standalone `updateProductDescription(p)`: the resolved HTML
      replaces the block's content; an empty one puts the stored default
      description there instead (an object default shows as
      `[object Object]`). */
  function UpdateDescription(description: Option<string>, p: Payload, default: Payload): (r: Option<string>)
    ensures r.Some? <==> description.Some?
    ensures description.Some? && ResolveHtml(p) != "" ==> r == Some(ResolveHtml(p))
    ensures description.Some? && ResolveHtml(p) == "" ==> r == Some(AsInnerHtml(default))
  {
    if description.None? then None
    else if ResolveHtml(p) != "" then Some(ResolveHtml(p))
    else Some(AsInnerHtml(default))
  }

  // ----- the handlers -----

  /** A change event on bundle radio `k`, after the browser has checked it.
      A bundle missing from the catalog is only logged. A found bundle
      clears the picker, writes the form id, sets `variant` in the page's
      address, shows price and availability, shows the bundle's own
      description when it has one, and marks the widget active. */
  function OnBundleChange(pg: Page, k: nat): (r: Page)
    requires k < |pg.bundles.radios|
    ensures var w := CheckBundleRadio(pg.bundles, k);
      var radio := pg.bundles.radios[k];
      var found := Find(pg.catalog, radio.variantId);
      && (found.None? ==> r == pg.(bundles := w))
      && (found.Some? ==>
          && r.bundles == w.(flags := ActiveFlags)
          && (pg.picker.Some? <==> r.picker.Some?)
          && (r.picker.Some? ==> r.picker == Some(ClearVariants(pg.picker.value)))
          && r.forms == SetFormVariant(pg.forms, pg.section, radio.variantId)
          && r.params == Set(pg.params, "variant", radio.variantId)
          && r.price == UpdatePrice(pg.price, found.value.price)
          && r.submit == UpdateSubmit(pg.submit, found.value.available, pg.strings)
          && (radio.description != "" ==> r.description == UpdateDescription(pg.description, Text(radio.description), pg.defaultDescription))
          && (radio.description == "" ==> r.description == pg.description)
          && r.catalog == pg.catalog && r.defaultDescription == pg.defaultDescription)
  {
    var w := CheckBundleRadio(pg.bundles, k);
    var radio := w.radios[k];
    var found := Find(pg.catalog, radio.variantId);
    if found.None? then pg.(bundles := w)
    else
      var v := found.value;
      var cleared := if pg.picker.Some? then Some(ClearVariants(pg.picker.value)) else None;
      var description := if radio.description != "" then UpdateDescription(pg.description, Text(radio.description), pg.defaultDescription)
                         else pg.description;
      var picker := if cleared.Some? then UncheckAfterClear(pg.picker.value); Some(UncheckVariantRadios(cleared.value)) else None;
      pg.(bundles := w.(flags := ActiveFlags), picker := picker,
          forms := SetFormVariant(pg.forms, pg.section, radio.variantId),
          params := Set(pg.params, "variant", radio.variantId),
          price := UpdatePrice(pg.price, v.price),
          submit := UpdateSubmit(pg.submit, v.available, pg.strings),
          description := description)
  }

  /** A change event on native radio `k`, after the browser has checked it:
      bundle radios are unchecked (their labels keep their classes), the
      default description is put back, and the picker is marked active.
      Nothing happens when the listeners were not installed. */
  function OnVariantRadioChange(pg: Page, k: nat): (r: Page)
    requires pg.picker.Some? && k < |pg.picker.value.radios|
    ensures !pg.variantListeners ==> r == pg.(picker := Some(CheckVariantRadio(pg.picker.value, k)))
    ensures pg.variantListeners ==>
      && r.bundles == UncheckBundles(pg.bundles)
      && r.picker == Some(CheckVariantRadio(pg.picker.value, k).(flags := ActiveFlags))
      && r.description == UpdateDescription(pg.description, pg.defaultDescription, pg.defaultDescription)
      && r.forms == pg.forms && r.params == pg.params && r.price == pg.price && r.submit == pg.submit
  {
    var p := CheckVariantRadio(pg.picker.value, k);
    if !pg.variantListeners then pg.(picker := Some(p))
    else
      pg.(bundles := UncheckBundles(pg.bundles), picker := Some(p.(flags := ActiveFlags)),
          description := UpdateDescription(pg.description, pg.defaultDescription, pg.defaultDescription))
  }

  /** A change event on a native dropdown. */
  function OnDropdownChange(pg: Page): (r: Page)
    requires pg.picker.Some?
    ensures !pg.variantListeners ==> r == pg
    ensures pg.variantListeners ==>
      && r.bundles == UncheckBundles(pg.bundles)
      && r.picker == Some(pg.picker.value.(flags := ActiveFlags))
      && r.description == UpdateDescription(pg.description, pg.defaultDescription, pg.defaultDescription)
  {
    if !pg.variantListeners then pg
    else
      pg.(bundles := UncheckBundles(pg.bundles), picker := Some(pg.picker.value.(flags := ActiveFlags)),
          description := UpdateDescription(pg.description, pg.defaultDescription, pg.defaultDescription))
  }

  /** `init` once the bundle widget is found: the default description and
      the catalog are read (unreadable ones count as absent), and only
      when there is a native picker and at least one bundle radio are the
      bundle variants hidden from it and its listeners installed. */
  function Init(pg: Page, defaultDescription: Option<Payload>, variants: Script): (r: Page)
    ensures r.catalog == VariantsData(variants)
    ensures r.defaultDescription == if defaultDescription.Some? then defaultDescription.value else Text("")
    ensures r.variantListeners <==> pg.picker.Some? && |pg.bundles.radios| > 0
    ensures r.variantListeners ==> r.picker == Some(HideBundleVariants(pg.picker.value, BundleIds(pg.bundles)))
    ensures !r.variantListeners ==> r.picker == pg.picker
    ensures r.bundles == pg.bundles && r.forms == pg.forms && r.description == pg.description
  {
    var ids := BundleIds(pg.bundles);
    var install := pg.picker.Some? && |ids| > 0;
    pg.(picker := if install then Some(HideBundleVariants(pg.picker.value, ids)) else pg.picker,
        variantListeners := install,
        defaultDescription := if defaultDescription.Some? then defaultDescription.value else Text(""),
        catalog := VariantsData(variants))
  }

  // ----- what the handlers guarantee -----

  predicate Exclusive(pg: Page) {
    !(AnyBundleChecked(pg.bundles) && pg.picker.Some? && AnyVariantChecked(pg.picker.value))
  }

  /** A found bundle ends alone and checked, with the picker cleared, the
      address naming it once and every other parameter kept. */
  lemma FoundBundleFacts(pg: Page, k: nat)
    requires k < |pg.bundles.radios|
    requires Find(pg.catalog, pg.bundles.radios[k].variantId).Some?
    ensures var r := OnBundleChange(pg, k);
      var id := pg.bundles.radios[k].variantId;
      && Exclusive(r)
      && r.bundles.radios[k].checked && r.bundles.flags == ActiveFlags
      && (r.picker.Some? ==> r.picker.value.flags == DeselectedFlags)
      && Get(r.params, "variant") == Some(id) && Count(r.params, "variant") == 1
      && Others(r.params, "variant") == Others(pg.params, "variant")
  {
    SetFacts(pg.params, "variant", pg.bundles.radios[k].variantId);
  }

  /** A native radio with listeners installed ends checked with no bundle
      checked. */
  lemma VariantExcludesBundles(pg: Page, k: nat)
    requires pg.picker.Some? && k < |pg.picker.value.radios| && pg.variantListeners
    ensures var r := OnVariantRadioChange(pg, k);
      Exclusive(r) && AnyVariantChecked(r.picker.value)
      && r.bundles.flags == DeselectedFlags && r.picker.value.flags == ActiveFlags
  {
    var r := OnVariantRadioChange(pg, k);
    assert r.picker.value.radios[k].checked;
  }

  /** The two versions part ways on an empty description: the component
      keeps what is shown, the standalone script shows its default. */
  lemma EmptyDescriptionVersionsDiffer(shown: string, p: Payload, default: Payload)
    requires ResolveHtml(p) == ""
    ensures ProductInfo.UpdateDescription(Some(shown), p) == Some(shown)
    ensures UpdateDescription(Some(shown), p, default) == Some(AsInnerHtml(default))
  {
  }

  /** Without a default description script, choosing a native variant
      empties the description block: the stored default is the empty
      string, which resolves to nothing and is then written back. */
  lemma NoDefaultEmptiesDescription(pg: Page, k: nat)
    requires pg.picker.Some? && k < |pg.picker.value.radios| && pg.variantListeners
    requires pg.description.Some? && pg.defaultDescription == Text("")
    ensures OnVariantRadioChange(pg, k).description == Some("")
  {
  }

  /** The standalone way of clearing bundle radios leaves label classes
      that the component's way removes. */
  lemma StandaloneKeepsLabels(pg: Page, k: nat, i: nat)
    requires pg.picker.Some? && k < |pg.picker.value.radios| && pg.variantListeners
    requires i < |pg.bundles.radios| && pg.bundles.radios[i].labelActive
    ensures OnVariantRadioChange(pg, k).bundles.radios[i].labelActive
    ensures !ClearBundles(pg.bundles).radios[i].labelActive
  {
    ClearingVersionsDiffer(pg.bundles, i);
  }
}

=== FILE: media_gallery.dfy ===
/** The list logic of the product page's media update (`updateMedia`): the
    gallery shown is a sequence of media ids, the fetched page's gallery is
    another; items of the fetched gallery the page lacks are prepended,
    items the fetched gallery lacks are dropped, and the rest is moved
    into the fetched order one position at a time. */
module MediaGallery {
  import opened Common

  /** The elements of `xs` whose membership in `ys` is `inside`, in
      order. */
  function Filter(xs: seq<string>, ys: seq<string>, inside: bool): (r: seq<string>)
    ensures |r| <= |xs|
  {
    if |xs| == 0 then []
    else if (xs[0] in ys) == inside then [xs[0]] + Filter(xs[1..], ys, inside)
    else Filter(xs[1..], ys, inside)
  }

  /** The filter keeps exactly the elements whose membership is `inside`,
      and keeps unique elements unique. */
  lemma {:induction false} FilterFacts(xs: seq<string>, ys: seq<string>, inside: bool)
    ensures forall x :: x in Filter(xs, ys, inside) <==> x in xs && (x in ys) == inside
    ensures Distinct(xs) ==> Distinct(Filter(xs, ys, inside))
    decreases |xs|
  {
    if |xs| > 0 {
      var rest := Filter(xs[1..], ys, inside);
      FilterFacts(xs[1..], ys, inside);
      assert forall x :: x in xs <==> x == xs[0] || x in xs[1..];
      DistinctTail(xs);
      if (xs[0] in ys) == inside {
        DistinctCons(xs[0], rest);
      }
    }
  }

  lemma DistinctTail(xs: seq<string>)
    requires |xs| > 0
    ensures Distinct(xs) ==> Distinct(xs[1..]) && xs[0] !in xs[1..]
  {
    if Distinct(xs) {
      forall i, j | 0 <= i < j < |xs[1..]| ensures xs[1..][i] != xs[1..][j] {
        assert xs[1..][i] == xs[i + 1] && xs[1..][j] == xs[j + 1];
      }
      forall i | 0 <= i < |xs[1..]| ensures xs[1..][i] != xs[0] {
        assert xs[1..][i] == xs[i + 1];
      }
    }
  }

  lemma DistinctCons(x: string, xs: seq<string>)
    ensures Distinct(xs) && x !in xs ==> Distinct([x] + xs)
  {
    if Distinct(xs) && x !in xs {
      forall i, j | 0 <= i < j < |[x] + xs| ensures ([x] + xs)[i] != ([x] + xs)[j] {
        if i == 0 { assert ([x] + xs)[j] == xs[j - 1]; }
        else { assert ([x] + xs)[i] == xs[i - 1] && ([x] + xs)[j] == xs[j - 1]; }
      }
    }
  }

  /** The prepend loop: walking the fetched ids `d` from position `i - 1`
      down to 0, each id missing from the original gallery `s` is put in
      front of `l`. */
  function PrependMissing(l: seq<string>, d: seq<string>, s: seq<string>, i: nat): seq<string>
    requires i <= |d|
    decreases i
  {
    if i == 0 then l
    else PrependMissing(if d[i - 1] !in s then [d[i - 1]] + l else l, d, s, i - 1)
  }

  /** The prepend loop puts the missing ids in front, in fetched order. */
  lemma {:induction false} PrependMissingFacts(l: seq<string>, d: seq<string>, s: seq<string>, i: nat)
    requires i <= |d|
    ensures PrependMissing(l, d, s, i) == Filter(d[..i], s, false) + l
    decreases i
  {
    if i > 0 {
      var x := d[i - 1];
      var f := Filter(d[..i - 1], s, false);
      FilterPrefixSnoc(d, s, i);
      if x !in s {
        PrependMissingFacts([x] + l, d, s, i - 1);
        assert f + ([x] + l) == (f + [x]) + l;
      } else {
        PrependMissingFacts(l, d, s, i - 1);
        assert f + [] == f;
      }
    }
  }

  lemma FilterPrefixSnoc(d: seq<string>, s: seq<string>, i: nat)
    requires 0 < i <= |d|
    ensures Filter(d[..i], s, false) == Filter(d[..i - 1], s, false) + (if d[i - 1] !in s then [d[i - 1]] else [])
  {
    assert d[..i] == d[..i - 1] + [d[i - 1]];
    FilterSnoc(d[..i - 1], d[i - 1], s);
  }

  lemma {:induction false} FilterSnoc(xs: seq<string>, x: string, ys: seq<string>)
    ensures Filter(xs + [x], ys, false) == Filter(xs, ys, false) + (if x !in ys then [x] else [])
    decreases |xs|
  {
    if |xs| == 0 {
      assert [x][1..] == [];
    } else {
      assert (xs + [x])[1..] == xs[1..] + [x];
      FilterSnoc(xs[1..], x, ys);
    }
  }

  /** The gallery after the prepend and removal loops: the fetched ids the
      page lacked, then the page's ids the fetched gallery still has. */
  function Prepared(s: seq<string>, d: seq<string>): (l: seq<string>)
    ensures l == Filter(d, s, false) + Filter(s, d, true)
  {
    PrependMissingFacts(s, d, s, |d|);
    assert d[..|d|] == d;
    var withMissing := PrependMissing(s, d, s, |d|);
    // the original items are the last |s| of the list; the stale ones go
    withMissing[..|withMissing| - |s|] + Filter(s, d, true)
  }

  /** The index the rebuilt id-to-item map keeps for `x`: a `Map` built
      from the list keeps the last occurrence. `-1` when absent. */
  function LastIndex(l: seq<string>, x: string): (k: int)
    ensures -1 <= k < |l|
    ensures k >= 0 ==> l[k] == x && forall j :: k < j < |l| ==> l[j] != x
    ensures k < 0 <==> x !in l
  {
    if |l| == 0 then -1
    else if l[|l| - 1] == x then |l| - 1
    else
      var k := LastIndex(l[..|l| - 1], x);
      assert x in l[..|l| - 1] ==> x in l;
      assert x in l ==> x in l[..|l| - 1] by {
        if x in l {
          var j :| 0 <= j < |l| && l[j] == x;
          assert l[..|l| - 1][j] == x;
        }
      }
      k
  }

  /** `insertBefore(item, li:nth-of-type(k + 1))`: item `j` is taken out
      and put in front of the item that was at position `k`, or at the
      end when there is no such item. */
  function MoveBefore(l: seq<string>, j: nat, k: nat): (r: seq<string>)
    requires j < |l| && j != k
    ensures |r| == |l|
  {
    var rest := l[..j] + l[j + 1..];
    if k < |l| then
      var p := if k < j then k else k - 1;
      rest[..p] + [l[j]] + rest[p..]
    else
      rest + [l[j]]
  }

  /** Moving an item keeps the same items, and moving it forward to `k`
      leaves the positions before `k` alone and puts it at `k`. */
  lemma MoveBeforeFacts(l: seq<string>, j: nat, k: nat)
    requires j < |l| && j != k
    ensures multiset(MoveBefore(l, j, k)) == multiset(l)
    ensures k < j ==> MoveBefore(l, j, k)[..k] == l[..k] && MoveBefore(l, j, k)[k] == l[j]
  {
    var rest := l[..j] + l[j + 1..];
    TakeOut(l, j);
    if k < |l| {
      var p := if k < j then k else k - 1;
      PutBack(rest, l[j], p);
      if k < j {
        assert rest[..p] == l[..k];
      }
    }
  }

  lemma TakeOut(l: seq<string>, j: nat)
    requires j < |l|
    ensures multiset(l) == multiset(l[..j] + l[j + 1..]) + multiset{l[j]}
  {
    assert l == l[..j] + [l[j]] + l[j + 1..];
  }

  lemma PutBack(rest: seq<string>, x: string, p: nat)
    requires p <= |rest|
    ensures multiset(rest[..p] + [x] + rest[p..]) == multiset(rest) + multiset{x}
  {
    assert rest == rest[..p] + rest[p..];
  }

  /** The ordering loop from fetched position `k` on: the fetched id at
      `k` is looked up in the rebuilt map and, when it sits elsewhere,
      moved in front of position `k`. */
  function SortFrom(l: seq<string>, d: seq<string>, k: nat): (r: seq<string>)
    ensures multiset(r) == multiset(l)
    decreases |d| - k
  {
    if k >= |d| then l
    else
      var j := LastIndex(l, d[k]);
      if j >= 0 && j != k then MoveBeforeFacts(l, j, k); SortFrom(MoveBefore(l, j, k), d, k + 1)
      else SortFrom(l, d, k + 1)
  }

  /** The whole reconciliation of the shown gallery `s` with the fetched
      gallery `d`. */
  function Reconcile(s: seq<string>, d: seq<string>): (r: seq<string>)
    ensures forall x :: x in r <==> x in d
  {
    var l := Prepared(s, d);
    FilterFacts(d, s, false);
    FilterFacts(s, d, true);
    var r := SortFrom(l, d, 0);
    assert forall x :: x in r <==> x in multiset(r);
    assert forall x :: x in l <==> x in multiset(l);
    r
  }

  lemma DistinctCount(xs: seq<string>, x: string)
    requires Distinct(xs)
    ensures multiset(xs)[x] == if x in xs then 1 else 0
    decreases |xs|
  {
    if |xs| > 0 {
      assert xs == [xs[0]] + xs[1..];
      DistinctTail(xs);
      DistinctCount(xs[1..], x);
    }
  }

  /** With ids unique in both galleries, the prepared list holds each
      fetched id exactly once. */
  lemma PreparedIsPermutation(s: seq<string>, d: seq<string>)
    requires Distinct(s) && Distinct(d)
    ensures multiset(Prepared(s, d)) == multiset(d)
  {
    var p := Filter(d, s, false);
    var q := Filter(s, d, true);
    FilterFacts(d, s, false);
    FilterFacts(s, d, true);
    forall x ensures multiset(p + q)[x] == multiset(d)[x] {
      DistinctCount(p, x);
      DistinctCount(q, x);
      DistinctCount(d, x);
    }
    assert multiset(p + q) == multiset(d);
  }

  /** The ordering loop, started on a permutation of unique fetched ids
      whose first `k` positions already agree, ends on the fetched order. */
  lemma {:induction false} SortFromSorts(l: seq<string>, d: seq<string>, k: nat)
    requires Distinct(d) && multiset(l) == multiset(d)
    requires k <= |d| && |l| == |d| && l[..k] == d[..k]
    ensures SortFrom(l, d, k) == d
    decreases |d| - k
  {
    if k == |d| {
      assert l == l[..k] && d == d[..k];
    } else {
      var l' := SortStep(l, d, k);
      SortFromSorts(l', d, k + 1);
    }
  }

  /** One round of the ordering loop puts the fetched id at position `k`
      and keeps the earlier positions. */
  lemma SortStep(l: seq<string>, d: seq<string>, k: nat) returns (l': seq<string>)
    requires Distinct(d) && multiset(l) == multiset(d)
    requires k < |d| && |l| == |d| && l[..k] == d[..k]
    ensures multiset(l') == multiset(d) && |l'| == |d| && l'[..k + 1] == d[..k + 1]
    ensures SortFrom(l, d, k) == SortFrom(l', d, k + 1)
  {
    assert d[k] in multiset(l);
    var j := LastIndex(l, d[k]);
    NotInSortedPrefix(l, d, k);
    assert j >= k;
    if j == k {
      l' := l;
      PrefixGrows(l, d, k);
    } else {
      l' := MoveStep(l, d, k, j);
    }
  }

  lemma MoveStep(l: seq<string>, d: seq<string>, k: nat, j: nat) returns (l': seq<string>)
    requires k < j < |l| && |l| == |d| && l[..k] == d[..k] && l[j] == d[k]
    ensures l' == MoveBefore(l, j, k)
    ensures multiset(l') == multiset(l) && |l'| == |l| && l'[..k + 1] == d[..k + 1]
  {
    l' := MoveBefore(l, j, k);
    MoveBeforeFacts(l, j, k);
    PrefixGrows(l', d, k);
  }

  lemma PrefixGrows(l: seq<string>, d: seq<string>, k: nat)
    requires k < |d| && k < |l| && l[..k] == d[..k] && l[k] == d[k]
    ensures l[..k + 1] == d[..k + 1]
  {
    assert l[..k + 1] == l[..k] + [l[k]];
    assert d[..k + 1] == d[..k] + [d[k]];
  }

  /** A fetched id is not in the already sorted prefix. */
  lemma NotInSortedPrefix(l: seq<string>, d: seq<string>, k: nat)
    requires Distinct(d) && k < |d| && k <= |l| && l[..k] == d[..k]
    ensures forall i :: 0 <= i < k ==> l[i] != d[k]
  {
    forall i | 0 <= i < k ensures l[i] != d[k] {
      assert l[..k][i] == d[..k][i];
    }
  }

  /** When media ids are unique in both galleries, the reconciled gallery
      is exactly the fetched one, in the fetched order. */
  lemma ReconcileMatchesFetched(s: seq<string>, d: seq<string>)
    requires Distinct(s) && Distinct(d)
    ensures Reconcile(s, d) == d
  {
    PreparedIsPermutation(s, d);
    var l := Prepared(s, d);
    assert |l| == |multiset(l)| == |multiset(d)| == |d|;
    SortFromSorts(l, d, 0);
  }

  /** Unique ids are needed for the order: a shown gallery `[a]` and a
      fetched gallery `[a, a]` reconcile to `[a]`, since the fetched `a` is
      already shown and is not prepended again; an unchanged gallery
      `[a, a]` does reach the fetched order. */
  lemma DuplicateIdMissesFetched()
    ensures Reconcile(["a"], ["a", "a"]) == ["a"] != ["a", "a"]
    ensures Reconcile(["a", "a"], ["a", "a"]) == ["a", "a"]
  {
    assert Prepared(["a"], ["a", "a"]) == ["a"];
    assert Prepared(["a", "a"], ["a", "a"]) == ["a", "a"];
  }

  /** What `updateMedia` leaves: the gallery's ids and the media made
      active (`None` when none is). */
  datatype Gallery = Gallery(ids: seq<string>, active: Option<string>)

  /** `updateMedia(html, featuredMediaId)`: nothing happens without a
      featured media id; the reordering needs both galleries' lists; the
      featured media, keyed `<section>-<id>`, is then made active when the
      component holds a `<media-gallery>` (`hasGallery`), whose list is
      `shown`. The id is a string: only a missing or empty one returns
      early (the number 0, which the source also skips, is not a media
      id). */
  function UpdateMedia(section: string, hasGallery: bool, shown: Option<seq<string>>, fetched: Option<seq<string>>,
                       featured: Option<string>, current: Gallery): (g: Gallery)
    requires shown.Some? ==> hasGallery
    ensures featured.None? || featured.value == "" ==> g == current
    ensures featured.Some? && featured.value != "" ==>
      && (hasGallery ==> g.active == Some(section + "-" + featured.value))
      && (!hasGallery ==> g == current)
      && (shown.Some? && fetched.Some? ==> forall x :: x in g.ids <==> x in fetched.value)
      && (shown.None? || fetched.None? ==> g.ids == current.ids)
  {
    if featured.None? || featured.value == "" then current
    else
      var ids := if shown.Some? && fetched.Some? then Reconcile(shown.value, fetched.value) else current.ids;
      var active := if hasGallery then Some(section + "-" + featured.value) else current.active;
      Gallery(ids, active)
  }
}

=== FILE: money.dfy ===
/** The fallback money formatter of the standalone gift-card script:
    `'$' + (cents / 100).toFixed(2)` on an integer number of cents, written
    with exact integer arithmetic, together with a parser for the text it
    produces so that the format can be shown to lose nothing. */
module Money {
  import opened Common

  predicate IsDigit(c: char) { '0' <= c <= '9' }

  predicate AllDigits(s: string) {
    forall i :: 0 <= i < |s| ==> IsDigit(s[i])
  }

  function DigitChar(d: nat): (c: char)
    requires d < 10
    ensures IsDigit(c)
  {
    ['0', '1', '2', '3', '4', '5', '6', '7', '8', '9'][d]
  }

  function DigitValue(c: char): (d: nat)
    requires IsDigit(c)
    ensures d < 10
  {
    (c as int - '0' as int) as nat
  }

  lemma DigitRoundTrip(d: nat)
    requires d < 10
    ensures DigitValue(DigitChar(d)) == d
  {
  }

  /** Decimal text of a natural number, without leading zeros. */
  function DecimalText(n: nat): (s: string)
    ensures |s| >= 1 && AllDigits(s)
    ensures |s| > 1 ==> s[0] != '0'
  {
    if n < 10 then [DigitChar(n)] else DecimalText(n / 10) + [DigitChar(n % 10)]
  }

  /** The value of a string of decimal digits. */
  function DecimalValue(s: string): nat
    requires AllDigits(s)
  {
    if |s| == 0 then 0 else DecimalValue(s[..|s| - 1]) * 10 + DigitValue(s[|s| - 1])
  }

  lemma {:induction false} DecimalRoundTrip(n: nat)
    ensures DecimalValue(DecimalText(n)) == n
  {
    if n >= 10 {
      var s := DecimalText(n);
      assert s[..|s| - 1] == DecimalText(n / 10);
      DecimalRoundTrip(n / 10);
      DigitRoundTrip(n % 10);
    } else {
      DigitRoundTrip(n);
    }
  }

  function Abs(x: int): nat { if x < 0 then -x else x }

  /** The magnitude with the sign put back. */
  function Signed(negative: bool, v: int): int { if negative then -v else v }

  /** The dollar sign, an optional minus sign, the whole units, a point and
      the cents digits. */
  function Assemble(negative: bool, whole: string, frac: string): string {
    "$" + (if negative then "-" else "") + whole + "." + frac
  }

  /** Where each part of the assembled text sits. */
  lemma AssembleFacts(negative: bool, whole: string, frac: string)
    requires |whole| >= 1 && AllDigits(whole) && |frac| == 2
    ensures var s := Assemble(negative, whole, frac);
      && |s| >= 5 && s[0] == '$' && s[|s| - 3] == '.'
      && (s[1] == '-' <==> negative)
      && s[(if negative then 2 else 1)..|s| - 3] == whole
      && s[|s| - 2..] == frac && s[|s| - 2] == frac[0] && s[|s| - 1] == frac[1]
  {
    var head := if negative then "$-" else "$";
    var s := Assemble(negative, whole, frac);
    assert s == head + whole + ("." + frac);
    if !negative {
      assert s[1] == whole[0];
    }
  }

  /** The two digits of the cents of an amount. */
  function CentsText(a: nat): (t: string)
    ensures |t| == 2 && AllDigits(t)
    ensures DecimalValue(t) == a % 100
  {
    var cents := a % 100;
    var t := [DigitChar(cents / 10), DigitChar(cents % 10)];
    DigitRoundTrip(cents / 10);
    DigitRoundTrip(cents % 10);
    assert t[..1] == [DigitChar(cents / 10)];
    assert t[..1][..0] == [];
    assert DecimalValue(t[..1]) == cents / 10;
    t
  }

  /** `'$' + (cents / 100).toFixed(2)`: the whole units, a point and
      exactly two digits of cents; a negative amount carries a minus sign
      after the dollar sign, as `toFixed` prints it. */
  function FormatMoney(cents: int): (s: string)
    ensures |s| >= 5 && s[0] == '$' && s[|s| - 3] == '.'
    ensures (s[1] == '-') <==> cents < 0
    ensures AllDigits(s[|s| - 2..]) && DecimalValue(s[|s| - 2..]) == Abs(cents) % 100
  {
    var a := Abs(cents);
    AssembleFacts(cents < 0, DecimalText(a / 100), CentsText(a));
    Assemble(cents < 0, DecimalText(a / 100), CentsText(a))
  }

  /** Reads back text of the shape `FormatMoney` writes; None for any
      other text. */
  function ParseMoney(s: string): Option<int> {
    if |s| < 5 || s[0] != '$' || s[|s| - 3] != '.' then None
    else
      var negative := s[1] == '-';
      ParseFields(negative, s[(if negative then 2 else 1)..|s| - 3], s[|s| - 2..])
  }

  /** The amount read from the sign, the whole units and the cents digits. */
  function ParseFields(negative: bool, whole: string, frac: string): Option<int> {
    if |whole| == 0 || !AllDigits(whole) || !AllDigits(frac) then None
    else Some(Signed(negative, DecimalValue(whole) * 100 + DecimalValue(frac)))
  }

  /** `ParseMoney` on assembled text reads back the digits' value, negated
      under the sign. */
  lemma ParseParts(negative: bool, whole: string, frac: string)
    requires |whole| >= 1 && AllDigits(whole) && |frac| == 2 && AllDigits(frac)
    ensures ParseMoney(Assemble(negative, whole, frac)) == ParseFields(negative, whole, frac)
  {
    AssembleFacts(negative, whole, frac);
  }

  /** The formatted price text determines the amount of cents exactly. */
  lemma FormatMoneyRoundTrip(cents: int)
    ensures ParseMoney(FormatMoney(cents)) == Some(cents)
  {
    var a := Abs(cents);
    FormatParsesToFields(cents);
    FieldsValue(cents < 0, a / 100, a);
    Recombine(cents);
  }

  /** Parsing the formatted text reads back exactly its sign, whole units
      and cents digits. */
  lemma FormatParsesToFields(cents: int)
    ensures ParseMoney(FormatMoney(cents))
         == ParseFields(cents < 0, DecimalText(Abs(cents) / 100), CentsText(Abs(cents)))
  {
    FormatIsAssembled(cents);
    ParseParts(cents < 0, DecimalText(Abs(cents) / 100), CentsText(Abs(cents)));
  }

  /** The fields written for whole units `w` and amount `a` read back as
      `w` units and the cents of `a`. */
  lemma FieldsValue(negative: bool, w: nat, a: nat)
    ensures ParseFields(negative, DecimalText(w), CentsText(a)) == Some(Signed(negative, w * 100 + a % 100))
  {
    DecimalRoundTrip(w);
  }

  lemma FormatIsAssembled(cents: int)
    ensures FormatMoney(cents) == Assemble(cents < 0, DecimalText(Abs(cents) / 100), CentsText(Abs(cents)))
  {
  }

  /** Whole units and cents of the magnitude give back the signed amount. */
  lemma Recombine(cents: int)
    ensures Signed(cents < 0, Abs(cents) / 100 * 100 + Abs(cents) % 100) == cents
  {
  }
}

=== FILE: picker.dfy ===
/** The two selection widgets as plain records: the bundle widget
    (`<bundle-selects>`) with its radio inputs, and the platform's native
    variant picker (`<variant-selects>`) with its radio inputs, dropdown
    options and fieldsets. The clearing steps both scripts share, the
    browser's own radio-group behaviour, and the step that hides bundle
    variants from the native picker live here. */
module Picker {
  import opened Common

  /** The `is-active` / `is-deselected` classes of a widget. */
  datatype Flags = Flags(active: bool, deselected: bool)

  const ActiveFlags := Flags(true, false)
  const DeselectedFlags := Flags(false, true)

  /** A bundle radio: its `data-bundle-variant-id`, `data-bundle-title` and
      `data-bundle-description` (`""` when absent), whether it is checked,
      whether it carries the `checked` attribute, and the `active` /
      `selected` classes of its label. */
  datatype BundleRadio = BundleRadio(
    variantId: string, title: string, description: string,
    checked: bool, checkedAttr: bool, labelActive: bool, labelSelected: bool)

  datatype BundleWidget = BundleWidget(radios: seq<BundleRadio>, flags: Flags)

  /** A radio of the native picker: its `name` (radio group), its
      `data-option-value-id`, the fieldset holding it, whether it is
      checked, its label's `active` / `selected` classes, and whether the
      input and its label are hidden by an inline `display: none`. */
  datatype VariantRadio = VariantRadio(
    group: string, optionValueId: string, fieldset: nat,
    checked: bool, labelActive: bool, labelSelected: bool,
    hidden: bool, labelHidden: bool)

  /** An `<option>` of a native dropdown. */
  datatype DropdownOption = DropdownOption(
    optionValueId: string, selectedAttr: bool, hidden: bool, disabled: bool)

  /** `fieldsetHidden[f]` is whether fieldset `f` has an inline
      `display: none`. */
  datatype VariantPicker = VariantPicker(
    radios: seq<VariantRadio>, options: seq<DropdownOption>,
    fieldsetHidden: seq<bool>, flags: Flags)

  predicate AnyBundleChecked(w: BundleWidget) {
    exists i :: 0 <= i < |w.radios| && w.radios[i].checked
  }

  predicate AnyVariantChecked(p: VariantPicker) {
    exists i :: 0 <= i < |p.radios| && p.radios[i].checked
  }

  /** `getBundleVariantIds`: the bundle variant ids, in document order. */
  function BundleIds(w: BundleWidget): (ids: seq<string>)
    ensures |ids| == |w.radios|
    ensures forall i :: 0 <= i < |ids| ==> ids[i] == w.radios[i].variantId
  {
    seq(|w.radios|, i requires 0 <= i < |w.radios| => w.radios[i].variantId)
  }

  // ----- clearing the bundle widget -----

  /** `deselectAllBundles` of the product-info component: every bundle radio
      is unchecked, loses its `checked` attribute and its label's `active`
      and `selected` classes, and the widget reads as deselected. */
  function ClearBundles(w: BundleWidget): (r: BundleWidget)
    ensures |r.radios| == |w.radios|
    ensures !AnyBundleChecked(r)
    ensures forall i :: 0 <= i < |r.radios| ==>
      && !r.radios[i].checkedAttr && !r.radios[i].labelActive && !r.radios[i].labelSelected
      && r.radios[i].variantId == w.radios[i].variantId
      && r.radios[i].title == w.radios[i].title
      && r.radios[i].description == w.radios[i].description
    ensures r.flags == DeselectedFlags
  {
    BundleWidget(
      seq(|w.radios|, i requires 0 <= i < |w.radios| =>
        w.radios[i].(checked := false, checkedAttr := false,
                     labelActive := false, labelSelected := false)),
      DeselectedFlags)
  }

  /** `deselectAllBundles` of the standalone script: every bundle radio is
      unchecked and the widget reads as deselected, but labels and `checked`
      attributes are left as they were. */
  function UncheckBundles(w: BundleWidget): (r: BundleWidget)
    ensures |r.radios| == |w.radios|
    ensures !AnyBundleChecked(r)
    ensures forall i :: 0 <= i < |r.radios| ==> r.radios[i] == w.radios[i].(checked := false)
    ensures r.flags == DeselectedFlags
  {
    BundleWidget(
      seq(|w.radios|, i requires 0 <= i < |w.radios| => w.radios[i].(checked := false)),
      DeselectedFlags)
  }

  /** The two versions differ only in the label classes and attributes:
      clearing in the component's way after the standalone's way is the
      same as the component's way alone, and a checked label survives the
      standalone's way. */
  lemma ClearingVersionsDiffer(w: BundleWidget, i: nat)
    requires i < |w.radios| && w.radios[i].labelActive
    ensures ClearBundles(UncheckBundles(w)) == ClearBundles(w)
    ensures UncheckBundles(w).radios[i].labelActive
    ensures !ClearBundles(w).radios[i].labelActive
  {
    assert ClearBundles(UncheckBundles(w)).radios == ClearBundles(w).radios;
  }

  // ----- clearing the variant picker -----

  /** `deselectAllVariants` (identical in both scripts): every radio is
      unchecked and its label loses `active` and `selected`, every dropdown
      option loses its `selected` attribute, and the picker reads as
      deselected; hiding and grouping are untouched. */
  function ClearVariants(p: VariantPicker): (r: VariantPicker)
    ensures |r.radios| == |p.radios| && |r.options| == |p.options|
    ensures !AnyVariantChecked(r)
    ensures forall i :: 0 <= i < |r.radios| ==>
      r.radios[i] == p.radios[i].(checked := false, labelActive := false, labelSelected := false)
    ensures forall i :: 0 <= i < |r.options| ==> r.options[i] == p.options[i].(selectedAttr := false)
    ensures r.fieldsetHidden == p.fieldsetHidden
    ensures r.flags == DeselectedFlags
  {
    VariantPicker(UncheckRadios(p.radios), ClearOptions(p.options), p.fieldsetHidden, DeselectedFlags)
  }

  function UncheckRadios(rs: seq<VariantRadio>): (r: seq<VariantRadio>)
    ensures |r| == |rs|
    ensures forall i :: 0 <= i < |r| ==>
      r[i] == rs[i].(checked := false, labelActive := false, labelSelected := false)
  {
    seq(|rs|, i requires 0 <= i < |rs| =>
      rs[i].(checked := false, labelActive := false, labelSelected := false))
  }

  function ClearOptions(os: seq<DropdownOption>): (r: seq<DropdownOption>)
    ensures |r| == |os|
    ensures forall i :: 0 <= i < |r| ==> r[i] == os[i].(selectedAttr := false)
  {
    seq(|os|, i requires 0 <= i < |os| => os[i].(selectedAttr := false))
  }

  /** `updateDefaultVariantPickerSelection`: the radio part of
      `deselectAllVariants`: the same radios, each unchecked with its label
      losing `active` and `selected`, and the dropdown options left
      alone. */
  function UncheckVariantRadios(p: VariantPicker): (r: VariantPicker)
    ensures |r.radios| == |p.radios|
    ensures forall i :: 0 <= i < |r.radios| ==>
      r.radios[i] == p.radios[i].(checked := false, labelActive := false, labelSelected := false)
    ensures !AnyVariantChecked(r)
    ensures r.options == p.options && r.fieldsetHidden == p.fieldsetHidden
    ensures r.flags == DeselectedFlags
  {
    p.(radios := UncheckRadios(p.radios), flags := DeselectedFlags)
  }

  /** Unchecking the radios again after a full clear changes nothing. */
  lemma UncheckAfterClear(p: VariantPicker)
    ensures UncheckVariantRadios(ClearVariants(p)) == ClearVariants(p)
  {
    assert UncheckRadios(UncheckRadios(p.radios)) == UncheckRadios(p.radios);
  }

  // ----- what the browser does before a change event -----

  /** The browser checking variant radio `k`: the other radios of its group
      are unchecked, radios of other groups keep their state. */
  function CheckVariantRadio(p: VariantPicker, k: nat): (r: VariantPicker)
    requires k < |p.radios|
    ensures |r.radios| == |p.radios| && r.radios[k].checked
    ensures forall i :: 0 <= i < |r.radios| && i != k ==>
      r.radios[i].checked == (p.radios[i].checked && p.radios[i].group != p.radios[k].group)
    ensures r.options == p.options && r.flags == p.flags && r.fieldsetHidden == p.fieldsetHidden
  {
    var g := p.radios[k].group;
    p.(radios := seq(|p.radios|, i requires 0 <= i < |p.radios| =>
      if i == k then p.radios[i].(checked := true)
      else if p.radios[i].group == g then p.radios[i].(checked := false)
      else p.radios[i]))
  }

  /** The browser checking bundle radio `k`; all bundle radios form one
      group, so every other bundle radio is unchecked. */
  function CheckBundleRadio(w: BundleWidget, k: nat): (r: BundleWidget)
    requires k < |w.radios|
    ensures |r.radios| == |w.radios| && r.radios[k].checked
    ensures forall i :: 0 <= i < |r.radios| && i != k ==> !r.radios[i].checked
    ensures forall i :: 0 <= i < |r.radios| ==>
      && r.radios[i].variantId == w.radios[i].variantId
      && r.radios[i].title == w.radios[i].title
      && r.radios[i].description == w.radios[i].description
    ensures r.flags == w.flags
  {
    w.(radios := seq(|w.radios|, i requires 0 <= i < |w.radios| =>
      w.radios[i].(checked := i == k)))
  }

  // ----- hiding bundle variants from the native picker -----

  /** The `data-option-value-id` of a radio and of a dropdown option. */
  function RadioKey(r: VariantRadio): string { r.optionValueId }
  function OptionKey(o: DropdownOption): string { o.optionValueId }

  /** The keys of the elements, in document order. */
  function Keys<T>(xs: seq<T>, key: T -> string): (keys: seq<string>)
    ensures |keys| == |xs|
    ensures forall i :: 0 <= i < |xs| ==> keys[i] == key(xs[i])
  {
    seq(|xs|, i requires 0 <= i < |xs| => key(xs[i]))
  }

  /** `querySelector('…[data-option-value-id="id"]')` over elements whose
      option value ids are `keys`: the first match, or -1. */
  function FirstMatch(keys: seq<string>, id: string): (k: int)
    ensures -1 <= k < |keys|
    ensures k >= 0 ==> keys[k] == id && forall j :: 0 <= j < k ==> keys[j] != id
    ensures k < 0 ==> forall j :: 0 <= j < |keys| ==> keys[j] != id
  {
    if |keys| == 0 then -1
    else if keys[|keys| - 1] == id && FirstMatch(keys[..|keys| - 1], id) < 0 then |keys| - 1
    else FirstMatch(keys[..|keys| - 1], id)
  }

  /** Some id of the list selects element `i` as its first match. */
  predicate Targeted(keys: seq<string>, ids: seq<string>, i: int) {
    exists n :: 0 <= n < |ids| && FirstMatch(keys, ids[n]) == i
  }

  /** An id added at the end targets its own first match besides the
      elements the earlier ids target. */
  lemma TargetedGrows(keys: seq<string>, ids: seq<string>)
    requires |ids| > 0
    ensures forall i :: 0 <= i < |keys| ==>
      (Targeted(keys, ids, i) <==> Targeted(keys, ids[..|ids| - 1], i) || FirstMatch(keys, ids[|ids| - 1]) == i)
  {
    var prefix := ids[..|ids| - 1];
    forall i | 0 <= i < |keys|
      ensures Targeted(keys, ids, i) <==> Targeted(keys, prefix, i) || FirstMatch(keys, ids[|ids| - 1]) == i
    {
      if Targeted(keys, ids, i) {
        var n :| 0 <= n < |ids| && FirstMatch(keys, ids[n]) == i;
        if n < |prefix| { assert prefix[n] == ids[n]; }
      }
      if Targeted(keys, prefix, i) {
        var n :| 0 <= n < |prefix| && FirstMatch(keys, prefix[n]) == i;
        assert ids[n] == prefix[n];
      }
    }
  }

  /** The per-id radio part of `hideBundleVariantsFromPicker`: for each id
      in turn, its first radio and that radio's label are hidden. */
  function HideRadios(rs: seq<VariantRadio>, ids: seq<string>): seq<VariantRadio>
    decreases |ids|
  {
    if |ids| == 0 then rs
    else
      var q := HideRadios(rs, ids[..|ids| - 1]);
      var k := FirstMatch(Keys(q, RadioKey), ids[|ids| - 1]);
      if k >= 0 then q[k := q[k].(hidden := true, labelHidden := true)] else q
  }

  /** The per-id option part: for each id in turn, its first option is
      hidden and disabled. */
  function HideOptions(os: seq<DropdownOption>, ids: seq<string>): seq<DropdownOption>
    decreases |ids|
  {
    if |ids| == 0 then os
    else
      var q := HideOptions(os, ids[..|ids| - 1]);
      var k := FirstMatch(Keys(q, OptionKey), ids[|ids| - 1]);
      if k >= 0 then q[k := q[k].(hidden := true, disabled := true)] else q
  }

  /** Hiding leaves the option value ids in place, so the first match of
      every id is the same before and after; a radio ends hidden exactly
      when it was hidden or is the first match of some id. */
  lemma {:induction false} HideRadiosFacts(rs: seq<VariantRadio>, ids: seq<string>)
    ensures var r := HideRadios(rs, ids);
      && |r| == |rs|
      && (forall i :: 0 <= i < |r| ==>
            r[i] == rs[i].(hidden := r[i].hidden, labelHidden := r[i].labelHidden))
      && (forall i :: 0 <= i < |r| ==>
            (r[i].hidden <==> rs[i].hidden || Targeted(Keys(rs, RadioKey), ids, i))
            && (r[i].labelHidden <==> rs[i].labelHidden || Targeted(Keys(rs, RadioKey), ids, i)))
    decreases |ids|
  {
    if |ids| > 0 {
      var prefix := ids[..|ids| - 1];
      HideRadiosFacts(rs, prefix);
      var q := HideRadios(rs, prefix);
      assert Keys(q, RadioKey) == Keys(rs, RadioKey);
      var k := FirstMatch(Keys(rs, RadioKey), ids[|ids| - 1]);
      TargetedGrows(Keys(rs, RadioKey), ids);
      var r := HideRadios(rs, ids);
      assert r == if k >= 0 then q[k := q[k].(hidden := true, labelHidden := true)] else q;
      forall i | 0 <= i < |r|
        ensures r[i] == rs[i].(hidden := r[i].hidden, labelHidden := r[i].labelHidden)
        ensures r[i].hidden <==> rs[i].hidden || Targeted(Keys(rs, RadioKey), ids, i)
        ensures r[i].labelHidden <==> rs[i].labelHidden || Targeted(Keys(rs, RadioKey), ids, i)
      {
        if i != k { assert r[i] == q[i]; }
      }
    }
  }

  lemma {:induction false} HideOptionsFacts(os: seq<DropdownOption>, ids: seq<string>)
    ensures var r := HideOptions(os, ids);
      && |r| == |os|
      && (forall i :: 0 <= i < |r| ==>
            r[i] == os[i].(hidden := r[i].hidden, disabled := r[i].disabled))
      && (forall i :: 0 <= i < |r| ==>
            (r[i].hidden <==> os[i].hidden || Targeted(Keys(os, OptionKey), ids, i))
            && (r[i].disabled <==> os[i].disabled || Targeted(Keys(os, OptionKey), ids, i)))
    decreases |ids|
  {
    if |ids| > 0 {
      var prefix := ids[..|ids| - 1];
      HideOptionsFacts(os, prefix);
      var q := HideOptions(os, prefix);
      assert Keys(q, OptionKey) == Keys(os, OptionKey);
      var k := FirstMatch(Keys(os, OptionKey), ids[|ids| - 1]);
      TargetedGrows(Keys(os, OptionKey), ids);
      var r := HideOptions(os, ids);
      assert r == if k >= 0 then q[k := q[k].(hidden := true, disabled := true)] else q;
      forall i | 0 <= i < |r|
        ensures r[i] == os[i].(hidden := r[i].hidden, disabled := r[i].disabled)
        ensures r[i].hidden <==> os[i].hidden || Targeted(Keys(os, OptionKey), ids, i)
        ensures r[i].disabled <==> os[i].disabled || Targeted(Keys(os, OptionKey), ids, i)
      {
        if i != k { assert r[i] == q[i]; }
      }
    }
  }

  /** Fieldset `f` still shows an input. */
  predicate HasVisibleInput(rs: seq<VariantRadio>, f: nat) {
    exists i :: 0 <= i < |rs| && rs[i].fieldset == f && !rs[i].hidden
  }

  /** The fieldset part of `hideBundleVariantsFromPicker`: a fieldset none
      of whose inputs is visible is hidden; none is ever shown again. */
  function HideEmptyFieldsets(p: VariantPicker): (r: VariantPicker)
    ensures |r.fieldsetHidden| == |p.fieldsetHidden|
    ensures forall f :: 0 <= f < |r.fieldsetHidden| ==>
      (r.fieldsetHidden[f] <==> p.fieldsetHidden[f] || !HasVisibleInput(p.radios, f))
    ensures r.radios == p.radios && r.options == p.options && r.flags == p.flags
  {
    p.(fieldsetHidden := seq(|p.fieldsetHidden|, f requires 0 <= f < |p.fieldsetHidden| =>
      p.fieldsetHidden[f] || !HasVisibleInput(p.radios, f)))
  }

  /** `hideBundleVariantsFromPicker`. */
  function HideBundleVariants(p: VariantPicker, ids: seq<string>): (r: VariantPicker)
    ensures |r.radios| == |p.radios| && |r.options| == |p.options|
    ensures |r.fieldsetHidden| == |p.fieldsetHidden| && r.flags == p.flags
    ensures forall i :: 0 <= i < |r.radios| ==>
      && r.radios[i].checked == p.radios[i].checked
      && r.radios[i].optionValueId == p.radios[i].optionValueId
      && r.radios[i].fieldset == p.radios[i].fieldset
      && (r.radios[i].hidden <==> p.radios[i].hidden || Targeted(Keys(p.radios, RadioKey), ids, i))
      && (r.radios[i].labelHidden <==> p.radios[i].labelHidden || Targeted(Keys(p.radios, RadioKey), ids, i))
    ensures forall i :: 0 <= i < |r.options| ==>
      && r.options[i].selectedAttr == p.options[i].selectedAttr
      && (r.options[i].hidden <==> p.options[i].hidden || Targeted(Keys(p.options, OptionKey), ids, i))
      && (r.options[i].disabled <==> p.options[i].disabled || Targeted(Keys(p.options, OptionKey), ids, i))
    ensures forall f :: 0 <= f < |r.fieldsetHidden| ==>
      (r.fieldsetHidden[f] <==> p.fieldsetHidden[f] || !HasVisibleInput(r.radios, f))
  {
    HideRadiosFacts(p.radios, ids);
    HideOptionsFacts(p.options, ids);
    HideEmptyFieldsets(p.(radios := HideRadios(p.radios, ids), options := HideOptions(p.options, ids)))
  }
}

=== FILE: product_info.dfy ===
/** The product-info component's side of the bundle integration: a bundle
    radio and the native variant picker exclude each other; choosing a
    bundle looks it up in the catalog, clears the picker, writes the
    product forms and requests the bundle's section; choosing a native
    variant clears the bundle widget, drops the Gift Type property and
    restores the default description. The request URLs it assembles are
    modelled as strings. */
module ProductInfo {
  import opened Common
  import opened Catalog
  import opened Picker
  import opened UrlParams

  /** A product form of the page (`#product-form-<section>` or
      `#product-form-installment-<section>`): its section, the value of
      its `id` input, and its Gift Type property input (`None` when the
      form has none). */
  datatype ProductForm = ProductForm(section: string, idValue: string, giftType: Option<string>)

  /** The component and the page parts it drives. `section`, `originalSection`,
      `url` and `updateUrl` are its data attributes (`""` when absent);
      `bundleSection` is the bundle widget's `data-section`; `description`
      is the description block's HTML (`None` when the page has none);
      `pendingRequestUrl` is `""` for null; `request` is the section
      request in flight, the latest one replacing any earlier one. */
  datatype Component = Component(
    section: string, originalSection: string, url: string, updateUrl: string,
    bundleSection: string,
    bundles: Option<BundleWidget>, picker: Option<VariantPicker>,
    forms: seq<ProductForm>, description: Option<string>, defaultDescription: Payload,
    catalog: seq<Variant>, pendingRequestUrl: string, request: Option<string>)

  /** The `sectionId` getter. */
  function SectionId(c: Component): string {
    OrElse(c.originalSection, c.section)
  }

  // ----- product forms -----

  /** `updateVariantInputs(id)`: every form of the section gets the id;
      the others are untouched. */
  function SetFormIds(forms: seq<ProductForm>, section: string, id: string): (r: seq<ProductForm>)
    ensures |r| == |forms|
    ensures forall i :: 0 <= i < |r| ==>
      && r[i].section == forms[i].section && r[i].giftType == forms[i].giftType
      && r[i].idValue == if forms[i].section == section then id else forms[i].idValue
  {
    seq(|forms|, i requires 0 <= i < |forms| =>
      if forms[i].section == section then forms[i].(idValue := id) else forms[i])
  }

  /** `setGiftTypeProperty(section, title)`: every form of the section
      carries the Gift Type input with the title, created when missing. */
  function SetGiftType(forms: seq<ProductForm>, section: string, title: string): (r: seq<ProductForm>)
    ensures |r| == |forms|
    ensures forall i :: 0 <= i < |r| ==>
      && r[i].section == forms[i].section && r[i].idValue == forms[i].idValue
      && r[i].giftType == if forms[i].section == section then Some(title) else forms[i].giftType
  {
    seq(|forms|, i requires 0 <= i < |forms| =>
      if forms[i].section == section then forms[i].(giftType := Some(title)) else forms[i])
  }

  /** `clearGiftTypeProperty(section)`: the Gift Type input is removed from
      every form of the section. */
  function ClearGiftType(forms: seq<ProductForm>, section: string): (r: seq<ProductForm>)
    ensures |r| == |forms|
    ensures forall i :: 0 <= i < |r| ==>
      && r[i].section == forms[i].section && r[i].idValue == forms[i].idValue
      && r[i].giftType == if forms[i].section == section then None else forms[i].giftType
  {
    seq(|forms|, i requires 0 <= i < |forms| =>
      if forms[i].section == section then forms[i].(giftType := None) else forms[i])
  }

  /** Clearing undoes setting: a form of the section ends without the
      property, as if it had never been set. */
  lemma ClearUndoesSet(forms: seq<ProductForm>, section: string, title: string)
    ensures ClearGiftType(SetGiftType(forms, section, title), section) == ClearGiftType(forms, section)
  {
    var a := ClearGiftType(SetGiftType(forms, section, title), section);
    var b := ClearGiftType(forms, section);
    assert forall i :: 0 <= i < |a| ==> a[i] == b[i];
  }

  /** Writing the ids twice leaves the second id: the last variant chosen
      is the one the forms submit. */
  lemma LastFormIdWins(forms: seq<ProductForm>, section: string, id1: string, id2: string)
    ensures SetFormIds(SetFormIds(forms, section, id1), section, id2) == SetFormIds(forms, section, id2)
  {
    var a := SetFormIds(SetFormIds(forms, section, id1), section, id2);
    var b := SetFormIds(forms, section, id2);
    assert forall i :: 0 <= i < |a| ==> a[i] == b[i];
  }

  /** The id input and the Gift Type input are independent: writing the id
      and setting or clearing the Gift Type give the same forms in either
      order, whatever sections the two steps address. */
  lemma FormIdsCommuteWithGiftType(forms: seq<ProductForm>, section: string, id: string,
                                   giftSection: string, title: string)
    ensures SetGiftType(SetFormIds(forms, section, id), giftSection, title)
         == SetFormIds(SetGiftType(forms, giftSection, title), section, id)
    ensures ClearGiftType(SetFormIds(forms, section, id), giftSection)
         == SetFormIds(ClearGiftType(forms, giftSection), section, id)
  {
    var a := SetGiftType(SetFormIds(forms, section, id), giftSection, title);
    var b := SetFormIds(SetGiftType(forms, giftSection, title), section, id);
    assert forall i :: 0 <= i < |a| ==> a[i] == b[i];
    var c := ClearGiftType(SetFormIds(forms, section, id), giftSection);
    var d := SetFormIds(ClearGiftType(forms, giftSection), section, id);
    assert forall i :: 0 <= i < |c| ==> c[i] == d[i];
  }

  // ----- description -----

  /** The component's `updateProductDescription(p)`: the resolved HTML
      replaces the block's content, an empty one keeps it; without a
      description block nothing happens. */
  function UpdateDescription(description: Option<string>, p: Payload): (r: Option<string>)
    ensures r.Some? <==> description.Some?
    ensures description.Some? && ResolveHtml(p) != "" ==> r == Some(ResolveHtml(p))
    ensures ResolveHtml(p) == "" ==> r == description
  {
    if description.None? then None else Some(OrElse(ResolveHtml(p), description.value))
  }

  /** Updating twice with the same payload is updating once. */
  lemma UpdateDescriptionIdempotent(description: Option<string>, p: Payload)
    ensures UpdateDescription(UpdateDescription(description, p), p) == UpdateDescription(description, p)
  {
  }

  /** `if (this._defaultProductDescription) updateProductDescription(...)`. */
  function RestoreDefault(c: Component): (r: Component)
    ensures r == c.(description := r.description)
    ensures Truthy(c.defaultDescription) ==> r.description == UpdateDescription(c.description, c.defaultDescription)
    ensures !Truthy(c.defaultDescription) ==> r.description == c.description
  {
    if Truthy(c.defaultDescription) then c.(description := UpdateDescription(c.description, c.defaultDescription))
    else c
  }

  // ----- request URLs -----

  /** The part of `s` after its first `?`, `None` when there is none; the
      partner of the URL builders below. */
  function QueryOf(s: string): Option<string> {
    if |s| == 0 then None
    else if s[0] == '?' then Some(s[1..])
    else QueryOf(s[1..])
  }

  /** `QueryOf` finds a query exactly when there is a `?`, and the query is
      what follows the first one. */
  lemma {:induction false} QueryOfFacts(s: string)
    ensures QueryOf(s).None? <==> '?' !in s
    ensures QueryOf(s).Some? ==> exists p :: '?' !in p && s == p + "?" + QueryOf(s).value
  {
    if |s| > 0 {
      if s[0] == '?' {
        assert s == [] + "?" + s[1..];
      } else {
        QueryOfFacts(s[1..]);
        assert forall c :: c in s <==> c == s[0] || c in s[1..];
        var q := QueryOf(s[1..]);
        if q.Some? {
          var p :| '?' !in p && s[1..] == p + "?" + q.value;
          assert s == ([s[0]] + p) + "?" + q.value;
          assert '?' !in [s[0]] + p;
        }
      }
    }
  }

  /** Splitting a string that is `path` (without `?`) followed by `?` and
      `query` gives back `query`. */
  lemma {:induction false} QueryOfAppend(path: string, query: string)
    ensures '?' !in path ==> QueryOf(path + "?" + query) == Some(query)
    decreases |path|
  {
    if '?' !in path {
      if |path| == 0 {
        assert path + "?" + query == ['?'] + query;
      } else {
        assert (path + "?" + query)[1..] == path[1..] + "?" + query;
        assert '?' !in path[1..] by {
          assert forall c :: c in path[1..] ==> c in path;
        }
        QueryOfAppend(path[1..], query);
      }
    }
  }

  /** The parameters a section request carries: `section_id` unless the
      whole page is wanted, then `option_values` when values were chosen. */
  function RequestParams(optionValues: seq<string>, fullPage: bool, sectionId: string): seq<Param> {
    (if !fullPage then [Param("section_id", sectionId)] else [])
    + (if |optionValues| > 0 then [Param("option_values", Join(optionValues, ","))] else [])
  }

  lemma RequestParamsFacts(optionValues: seq<string>, fullPage: bool, sectionId: string)
    ensures var ps := RequestParams(optionValues, fullPage, sectionId);
      && (Has(ps, "section_id") <==> !fullPage)
      && (Has(ps, "option_values") <==> |optionValues| > 0)
      && (!fullPage ==> Get(ps, "section_id") == Some(sectionId))
      && (|optionValues| > 0 ==> Get(ps, "option_values") == Some(Join(optionValues, ",")))
      && (!fullPage ==> ps[0].name == "section_id")
  {
    var ps := RequestParams(optionValues, fullPage, sectionId);
    var sid := Param("section_id", sectionId);
    var ov := Param("option_values", Join(optionValues, ","));
    assert "section_id" != "option_values" by {
      assert "section_id"[0] != "option_values"[0];
    }
    if !fullPage && |optionValues| > 0 {
      assert ps == [sid, ov] && ps[1..] == [ov];
      assert ps[0].name == "section_id" && ps[1].name == "option_values";
    } else if !fullPage {
      assert ps == [sid];
      assert ps[0].name == "section_id";
      assert ps[0].name != "option_values";
    } else if |optionValues| > 0 {
      assert ps == [ov];
      assert ps[0].name == "option_values";
      assert ps[0].name != "section_id";
    } else {
      assert ps == [];
    }
  }

  /** `name=value` pairs joined by `&`, as the template strings write them
      (no escaping). */
  function Serialize(ps: seq<Param>): string {
    Join(PairTexts(ps), "&")
  }

  function PairTexts(ps: seq<Param>): (ts: seq<string>)
    ensures |ts| == |ps|
  {
    if |ps| == 0 then [] else [ps[0].name + "=" + ps[0].value] + PairTexts(ps[1..])
  }

  /** `buildRequestUrlWithParams(url, optionValues, fullPage)`. */
  function BuildRequestUrl(url: string, optionValues: seq<string>, fullPage: bool, sectionId: string): string {
    url + "?" + Serialize(RequestParams(optionValues, fullPage, sectionId))
  }

  /** Read back, the query of a request URL is exactly its parameter
      list. */
  lemma RequestUrlQuery(url: string, optionValues: seq<string>, fullPage: bool, sectionId: string)
    requires '?' !in url
    ensures QueryOf(BuildRequestUrl(url, optionValues, fullPage, sectionId))
         == Some(Serialize(RequestParams(optionValues, fullPage, sectionId)))
  {
    QueryOfAppend(url, Serialize(RequestParams(optionValues, fullPage, sectionId)));
  }

  /** The string part of `updateURL(url, variantId)`: the address `url`,
      followed by `?variant=<id>` when there is a variant id. */
  function VariantUrl(url: string, variantId: string): (r: string)
    ensures '?' !in url ==> QueryOf(r) == if variantId != "" then Some("variant=" + variantId) else None
    ensures |r| >= |url| && r[..|url|] == url
  {
    if variantId != "" then
      QueryOfAppend(url, "variant=" + variantId);
      url + "?" + ("variant=" + variantId)
    else
      QueryOfFacts(url);
      url
  }

  /** What `updateURL` writes: the share button's address (with the shop's
      origin in front; `None` when the component has no `<share-button>`)
      and the browser history entry, which is kept when the component's
      `data-update-url` is `"false"`. */
  datatype Address = Address(share: Option<string>, history: string)

  function UpdateUrl(shopUrl: string, url: string, variantId: string, updateUrl: string,
                     current: Address): (a: Address)
    ensures a.share.Some? <==> current.share.Some?
    ensures current.share.Some? ==> a.share == Some(shopUrl + VariantUrl(url, variantId))
    ensures updateUrl == "false" ==> a.history == current.history
    ensures updateUrl != "false" ==> a.history == VariantUrl(url, variantId)
  {
    Address(if current.share.Some? then Some(shopUrl + VariantUrl(url, variantId)) else None,
            if updateUrl == "false" then current.history else VariantUrl(url, variantId))
  }

  // ----- the handlers -----

  /** The request a bundle choice starts: the component's product URL
      with the variant and the section. */
  function BundleRequestUrl(c: Component, variantId: string): string {
    c.url + "?variant=" + variantId + "&section_id=" + SectionId(c)
  }

  /** The section whose forms get the Gift Type: the bundle widget's, else
      the component's `data-section`, else its `sectionId`. */
  function GiftSection(c: Component): string {
    OrElse(OrElse(c.bundleSection, c.section), SectionId(c))
  }

  /** A change event on bundle radio `k`, after the browser has checked it
      (and so unchecked the other bundle radios). A bundle missing from the
      catalog is only logged. A found bundle clears the variant picker,
      writes its id into the section's forms, records its title as Gift
      Type, requests the bundle's section and marks the widget active. */
  function OnBundleChange(c: Component, k: nat): (r: Component)
    requires c.bundles.Some? && k < |c.bundles.value.radios|
    ensures var w := CheckBundleRadio(c.bundles.value, k);
      var radio := c.bundles.value.radios[k];
      var found := Find(c.catalog, radio.variantId);
      && (found.None? ==> r == c.(bundles := Some(w)))
      && (found.Some? ==>
          && r.bundles == Some(w.(flags := ActiveFlags))
          && (c.picker.Some? <==> r.picker.Some?)
          && (r.picker.Some? ==> r.picker == Some(ClearVariants(c.picker.value)) && !AnyVariantChecked(r.picker.value))
          && |r.forms| == |c.forms|
          && (forall i :: 0 <= i < |r.forms| ==>
                && (r.forms[i].idValue == if c.forms[i].section == c.section then radio.variantId else c.forms[i].idValue)
                && (r.forms[i].giftType == if c.forms[i].section == GiftSection(c)
                                           then Some(OrElse(radio.title, found.value.title))
                                           else c.forms[i].giftType))
          && r.request == Some(BundleRequestUrl(c, radio.variantId))
          && r.description == c.description && r.pendingRequestUrl == c.pendingRequestUrl
          && r.catalog == c.catalog)
  {
    var w := CheckBundleRadio(c.bundles.value, k);
    var radio := w.radios[k];
    var found := Find(c.catalog, radio.variantId);
    if found.None? then c.(bundles := Some(w))
    else
      var picker := if c.picker.Some? then Some(ClearVariants(c.picker.value)) else None;
      var forms := SetFormIds(c.forms, c.section, radio.variantId);
      var forms2 := SetGiftType(forms, GiftSection(c), OrElse(radio.title, OrElse(found.value.title, "")));
      c.(bundles := Some(w.(flags := ActiveFlags)), picker := picker, forms := forms2,
         request := Some(BundleRequestUrl(c, radio.variantId)))
  }

  /** A change event on native radio `k`, after the browser has checked it
      (and unchecked the rest of its group): every bundle radio is cleared,
      the default description is restored when there is one, and the
      picker is marked active. */
  function OnVariantRadioChange(c: Component, k: nat): (r: Component)
    requires c.bundles.Some? && c.picker.Some? && k < |c.picker.value.radios|
    ensures r.bundles == Some(ClearBundles(c.bundles.value)) && !AnyBundleChecked(r.bundles.value)
    ensures r.picker == Some(CheckVariantRadio(c.picker.value, k).(flags := ActiveFlags))
    ensures r.picker.value.radios[k].checked
    ensures r.description == RestoreDefault(c).description
    ensures r.forms == c.forms && r.request == c.request && r.pendingRequestUrl == c.pendingRequestUrl
  {
    var p := CheckVariantRadio(c.picker.value, k);
    RestoreDefault(c.(bundles := Some(ClearBundles(c.bundles.value))))
      .(picker := Some(p.(flags := ActiveFlags)))
  }

  /** A change event on a native dropdown; the browser's change of the
      selection leaves the `selected` attributes alone. */
  function OnDropdownChange(c: Component): (r: Component)
    requires c.bundles.Some? && c.picker.Some?
    ensures r.bundles == Some(ClearBundles(c.bundles.value)) && !AnyBundleChecked(r.bundles.value)
    ensures r.picker == Some(c.picker.value.(flags := ActiveFlags))
    ensures r.description == RestoreDefault(c).description
    ensures r.forms == c.forms && r.request == c.request
  {
    RestoreDefault(c.(bundles := Some(ClearBundles(c.bundles.value))))
      .(picker := Some(c.picker.value.(flags := ActiveFlags)))
  }

  /** `handleOptionValueChange`, up to the request it starts: ignored for
      events from outside the component; otherwise a bundle widget on the
      page is cleared and the default description restored, the Gift Type
      is removed from the section's forms, and the section (or, when the
      product is swapped on a page that follows the URL, the whole page) is
      requested for the chosen option values. */
  function OnOptionValueChange(c: Component, inside: bool, targetUrl: string, optionValues: seq<string>): (r: Component)
    ensures !inside ==> r == c
    ensures inside ==>
      var productUrl := OrElse(targetUrl, OrElse(c.pendingRequestUrl, c.url));
      var fullPage := c.updateUrl == "true" && c.url != productUrl;
      && (c.bundles.Some? <==> r.bundles.Some?)
      && (c.bundles.Some? ==> r.bundles == Some(ClearBundles(c.bundles.value)) && r.description == RestoreDefault(c).description)
      && (c.bundles.None? ==> r.description == c.description)
      && r.forms == ClearGiftType(c.forms, SectionId(c))
      && r.pendingRequestUrl == productUrl
      && r.request == Some(BuildRequestUrl(productUrl, optionValues, fullPage, SectionId(c)))
      && r.picker == c.picker
  {
    if !inside then c
    else
      var c1 := if c.bundles.Some? then RestoreDefault(c.(bundles := Some(ClearBundles(c.bundles.value)))) else c;
      var productUrl := OrElse(targetUrl, OrElse(c.pendingRequestUrl, c.url));
      var fullPage := c.updateUrl == "true" && c.url != productUrl;
      c1.(forms := ClearGiftType(c1.forms, SectionId(c)),
          pendingRequestUrl := productUrl,
          request := Some(BuildRequestUrl(productUrl, optionValues, fullPage, SectionId(c))))
  }

  /** `initializeBundleIntegration` once the bundle widget is found: the
      default description and the catalog are read from their scripts (an
      unreadable one counts as absent), and, when the page has a native
      picker and the widget has bundle radios, their variants are hidden
      from the picker. */
  function Connect(c: Component, w: BundleWidget, defaultDescription: Payload, variants: Script): (r: Component)
    ensures r.bundles == Some(w) && r.catalog == VariantsData(variants)
    ensures r.defaultDescription == defaultDescription
    ensures c.picker.Some? && |w.radios| > 0 ==> r.picker == Some(HideBundleVariants(c.picker.value, BundleIds(w)))
    ensures c.picker.None? || |w.radios| == 0 ==> r.picker == c.picker
    ensures r.forms == c.forms && r.description == c.description
  {
    var ids := BundleIds(w);
    var picker := if c.picker.Some? && |ids| > 0 then Some(HideBundleVariants(c.picker.value, ids)) else c.picker;
    c.(bundles := Some(w), picker := picker, defaultDescription := defaultDescription,
       catalog := VariantsData(variants))
  }

  // ----- what the handlers guarantee together -----

  /** At most one of the two widgets shows a checked radio. */
  predicate Exclusive(c: Component) {
    !(c.bundles.Some? && AnyBundleChecked(c.bundles.value) && c.picker.Some? && AnyVariantChecked(c.picker.value))
  }

  /** Choosing a bundle the catalog knows leaves that bundle alone checked
      and the picker with nothing checked. */
  lemma FoundBundleExcludesVariants(c: Component, k: nat)
    requires c.bundles.Some? && k < |c.bundles.value.radios|
    requires Find(c.catalog, c.bundles.value.radios[k].variantId).Some?
    ensures var r := OnBundleChange(c, k);
      && Exclusive(r)
      && r.bundles.value.radios[k].checked
      && (forall i :: 0 <= i < |r.bundles.value.radios| && i != k ==> !r.bundles.value.radios[i].checked)
      && r.bundles.value.flags == ActiveFlags
      && (r.picker.Some? ==> r.picker.value.flags == DeselectedFlags)
  {
  }

  /** Choosing a native variant leaves no bundle checked. */
  lemma VariantExcludesBundles(c: Component, k: nat)
    requires c.bundles.Some? && c.picker.Some? && k < |c.picker.value.radios|
    ensures var r := OnVariantRadioChange(c, k);
      && Exclusive(r) && AnyVariantChecked(r.picker.value)
      && r.bundles.value.flags == DeselectedFlags && r.picker.value.flags == ActiveFlags
  {
    var r := OnVariantRadioChange(c, k);
    assert r.picker.value.radios[k].checked;
  }

  /** A bundle the catalog does not know changes nothing but the browser's
      own check, so a native radio checked before stays checked beside it. */
  lemma MissedBundleKeepsVariant(c: Component, k: nat, v: nat)
    requires c.bundles.Some? && k < |c.bundles.value.radios|
    requires Find(c.catalog, c.bundles.value.radios[k].variantId).None?
    requires c.picker.Some? && v < |c.picker.value.radios| && c.picker.value.radios[v].checked
    ensures !Exclusive(OnBundleChange(c, k))
    ensures OnBundleChange(c, k).forms == c.forms && OnBundleChange(c, k).request == c.request
  {
    var r := OnBundleChange(c, k);
    assert r.bundles.value.radios[k].checked;
    assert r.picker.value.radios[v].checked;
  }

  /** Choosing a bundle and then a native option leaves the section's forms
      without a Gift Type, whatever the bundle wrote. */
  lemma OptionChangeDropsGiftType(c: Component, k: nat, targetUrl: string, optionValues: seq<string>)
    requires c.bundles.Some? && k < |c.bundles.value.radios|
    ensures var r := OnOptionValueChange(OnBundleChange(c, k), true, targetUrl, optionValues);
      forall i :: 0 <= i < |r.forms| && r.forms[i].section == SectionId(c) ==> r.forms[i].giftType.None?
  {
  }

  /** A native radio's own change listener and the option-change handler
      it triggers touch different parts of the state, so the order in which
      they run does not matter. */
  lemma ListenerOrderIrrelevant(c: Component, k: nat, targetUrl: string, optionValues: seq<string>)
    requires c.bundles.Some? && c.picker.Some? && k < |c.picker.value.radios|
    ensures OnOptionValueChange(OnVariantRadioChange(c, k), true, targetUrl, optionValues)
         == OnVariantRadioChange(OnOptionValueChange(c, true, targetUrl, optionValues), k)
  {
    var a := OnOptionValueChange(OnVariantRadioChange(c, k), true, targetUrl, optionValues);
    var b := OnVariantRadioChange(OnOptionValueChange(c, true, targetUrl, optionValues), k);
    ClearBundlesIdempotent(c.bundles.value);
    UpdateDescriptionIdempotent(c.description, c.defaultDescription);
    assert a.bundles == b.bundles;
    assert a.description == b.description;
  }

  lemma ClearBundlesIdempotent(w: BundleWidget)
    ensures ClearBundles(ClearBundles(w)) == ClearBundles(w)
  {
    assert ClearBundles(ClearBundles(w)).radios == ClearBundles(w).radios;
  }
}

=== FILE: quantity_rules.dfy ===
/** The quantity input's bounds on the product page (`setQuantityBoundries`):
    the lowest quantity offered, the optional highest one, and the value
    the input is reset to. */
module QuantityRules {
  import opened Common

  /** The input's `data-cart-quantity`, `data-min`, `data-max` and `step`,
      each `None` when the attribute is absent or empty and otherwise the
      integer it parses to. */
  datatype Attributes = Attributes(cartQuantity: Option<int>, min: Option<int>, max: Option<int>, step: Option<int>)

  /** What is written back: the `min` attribute, the `max` attribute
      (`None` when it is removed) and the input's value. */
  datatype Bounds = Bounds(min: int, max: Option<int>, value: int)

  /** The defaults for absent attributes: nothing in the cart, a minimum of
      1, no maximum, a step of 1. */
  function CartOf(a: Attributes): int { a.cartQuantity.GetOr(0) }
  function MinOf(a: Attributes): int { a.min.GetOr(1) }
  function StepOf(a: Attributes): int { a.step.GetOr(1) }

  /** The room left under the maximum once the cart is counted. */
  function RoomOf(a: Attributes): Option<int> {
    if a.max.Some? then Some(a.max.value - CartOf(a)) else None
  }

  /** The bounds an admissible minimum has to respect: the data minimum,
      the room left when there is a maximum, and the step once the cart
      already holds the data minimum. */
  predicate Admissible(a: Attributes, m: int) {
    && m <= MinOf(a)
    && (RoomOf(a).Some? ==> m <= RoomOf(a).value)
    && (CartOf(a) >= MinOf(a) ==> m <= StepOf(a))
  }

  function SetQuantityBounds(a: Attributes): (b: Bounds)
    ensures Admissible(a, b.min)
    ensures b.min == MinOf(a)
         || (RoomOf(a).Some? && b.min == RoomOf(a).value)
         || (CartOf(a) >= MinOf(a) && b.min == StepOf(a))
    ensures b.value == b.min
    ensures b.max.Some? <==> RoomOf(a).Some? && RoomOf(a).value != 0
    ensures b.max.Some? ==> b.max == RoomOf(a)
  {
    var room := RoomOf(a);
    var m1 := if room.Some? then Min(MinOf(a), room.value) else MinOf(a);
    var m2 := if CartOf(a) >= MinOf(a) then Min(m1, StepOf(a)) else m1;
    Bounds(m2, if room.Some? && room.value != 0 then room else None, m2)
  }

  /** The minimum written is the largest one every applicable bound
      admits. */
  lemma MinIsGreatestAdmissible(a: Attributes, m: int)
    requires Admissible(a, m)
    ensures m <= SetQuantityBounds(a).min
  {
  }

  /** With no attributes at all the input offers 1 to unlimited and reads 1. */
  lemma NoAttributes()
    ensures SetQuantityBounds(Attributes(None, None, None, None)) == Bounds(1, None, 1)
  {
  }

  /** A maximum the cart has exactly used up counts as no maximum. */
  lemma FullMaxIsRemoved(a: Attributes)
    requires a.max.Some? && a.max.value == CartOf(a)
    ensures SetQuantityBounds(a).max.None?
    ensures SetQuantityBounds(a).min <= 0
  {
  }
}

=== FILE: url_params.dfy ===
/** The query parameters of the page address as an ordered list of
    name/value pairs, and `URLSearchParams.set` over it: the first pair with
    the name takes the new value, later pairs with that name are dropped,
    and a name not yet present is appended at the end. */
module UrlParams {
  import opened Common

  datatype Param = Param(name: string, value: string)

  predicate Has(ps: seq<Param>, name: string) {
    exists i :: 0 <= i < |ps| && ps[i].name == name
  }

  /** `searchParams.get(name)`: the value of the first pair with the name. */
  function Get(ps: seq<Param>, name: string): Option<string> {
    if |ps| == 0 then None
    else if ps[0].name == name then Some(ps[0].value)
    else Get(ps[1..], name)
  }

  /** How many pairs carry the name. */
  function Count(ps: seq<Param>, name: string): nat {
    if |ps| == 0 then 0
    else (if ps[0].name == name then 1 else 0) + Count(ps[1..], name)
  }

  /** The pairs with any other name, in their order. */
  function Others(ps: seq<Param>, name: string): seq<Param> {
    if |ps| == 0 then []
    else (if ps[0].name == name then [] else [ps[0]]) + Others(ps[1..], name)
  }

  function ReplaceFirst(ps: seq<Param>, name: string, value: string): seq<Param> {
    if |ps| == 0 then []
    else if ps[0].name == name then [Param(name, value)] + Others(ps[1..], name)
    else [ps[0]] + ReplaceFirst(ps[1..], name, value)
  }

  /** `url.searchParams.set(name, value)`. */
  function Set(ps: seq<Param>, name: string, value: string): seq<Param> {
    if Has(ps, name) then ReplaceFirst(ps, name, value) else ps + [Param(name, value)]
  }

  lemma {:induction false} OthersNoName(ps: seq<Param>, name: string)
    ensures Count(Others(ps, name), name) == 0
    ensures Others(Others(ps, name), name) == Others(ps, name)
  {
    if |ps| > 0 {
      OthersNoName(ps[1..], name);
      var head := if ps[0].name == name then [] else [ps[0]];
      ConcatParams(head, Others(ps[1..], name), name);
    }
  }

  /** A non-empty list has the name when its head or its tail does. */
  lemma HasCons(ps: seq<Param>, name: string)
    requires |ps| > 0
    ensures Has(ps, name) <==> ps[0].name == name || Has(ps[1..], name)
  {
    if Has(ps, name) && ps[0].name != name {
      var i :| 0 <= i < |ps| && ps[i].name == name;
      assert ps[1..][i - 1].name == name;
    }
    if Has(ps[1..], name) {
      var i :| 0 <= i < |ps[1..]| && ps[1..][i].name == name;
      assert ps[i + 1].name == name;
    }
  }

  lemma ConcatParams(a: seq<Param>, b: seq<Param>, name: string)
    ensures Count(a + b, name) == Count(a, name) + Count(b, name)
    ensures Others(a + b, name) == Others(a, name) + Others(b, name)
    ensures Get(a + b, name) == if Has(a, name) then Get(a, name) else Get(b, name)
  {
    ConcatCount(a, b, name);
    ConcatOthers(a, b, name);
    ConcatGet(a, b, name);
  }

  lemma {:induction false} ConcatCount(a: seq<Param>, b: seq<Param>, name: string)
    ensures Count(a + b, name) == Count(a, name) + Count(b, name)
  {
    if |a| == 0 {
      assert a + b == b;
    } else {
      assert (a + b)[0] == a[0];
      assert (a + b)[1..] == a[1..] + b;
      ConcatCount(a[1..], b, name);
    }
  }

  lemma {:induction false} ConcatOthers(a: seq<Param>, b: seq<Param>, name: string)
    ensures Others(a + b, name) == Others(a, name) + Others(b, name)
  {
    if |a| == 0 {
      assert a + b == b;
    } else {
      assert (a + b)[0] == a[0];
      assert (a + b)[1..] == a[1..] + b;
      ConcatOthers(a[1..], b, name);
    }
  }

  lemma {:induction false} ConcatGet(a: seq<Param>, b: seq<Param>, name: string)
    ensures Get(a + b, name) == if Has(a, name) then Get(a, name) else Get(b, name)
  {
    if |a| == 0 {
      assert a + b == b;
    } else {
      assert (a + b)[0] == a[0];
      assert (a + b)[1..] == a[1..] + b;
      ConcatGet(a[1..], b, name);
      HasCons(a, name);
    }
  }

  lemma {:induction false} ReplaceFirstFacts(ps: seq<Param>, name: string, value: string)
    requires Has(ps, name)
    ensures Get(ReplaceFirst(ps, name, value), name) == Some(value)
    ensures Count(ReplaceFirst(ps, name, value), name) == 1
    ensures Others(ReplaceFirst(ps, name, value), name) == Others(ps, name)
  {
    var r := ReplaceFirst(ps, name, value);
    if ps[0].name == name {
      OthersNoName(ps[1..], name);
      ConcatParams([Param(name, value)], Others(ps[1..], name), name);
      assert Others([Param(name, value)], name) == [];
    } else {
      HasCons(ps, name);
      ReplaceFirstFacts(ps[1..], name, value);
      ConcatParams([ps[0]], ReplaceFirst(ps[1..], name, value), name);
    }
  }

  /** After `set`, reading the parameter gives the new value, the name
      occurs exactly once, and every other parameter is kept in order. */
  lemma SetFacts(ps: seq<Param>, name: string, value: string)
    ensures Get(Set(ps, name, value), name) == Some(value)
    ensures Count(Set(ps, name, value), name) == 1
    ensures Others(Set(ps, name, value), name) == Others(ps, name)
  {
    if Has(ps, name) {
      ReplaceFirstFacts(ps, name, value);
    } else {
      ConcatParams(ps, [Param(name, value)], name);
      NoNameFacts(ps, name);
      assert Others([Param(name, value)], name) == [];
    }
  }

  lemma {:induction false} NoNameFacts(ps: seq<Param>, name: string)
    requires !Has(ps, name)
    ensures Count(ps, name) == 0
    ensures Others(ps, name) == ps
  {
    if |ps| > 0 {
      NoNameFacts(ps[1..], name);
      assert ps == [ps[0]] + ps[1..];
    }
  }
}
